=== FILE: README.md ===
# Selection and filter bookkeeping of DataVizTest, in Dafny

DataVizTest is a notebook tool for exploring a survey table. The user picks
values of categorical attributes and ranges of numeric ones. The picks are
kept in a *selection store*, an insertion-ordered dictionary from attribute
name to a list of stored entries. The rows are filtered by that store, and
the filtered rows are summarised as count tables. A four-state menu machine
tracks which menu is open.

This project models that bookkeeping with immutable datatypes and pure
functions. Widgets, plotting and pandas are only the means of reaching it,
so they are not modelled.

- `Values` (`values.dfy`): the ordered value types.
  - A cell is `Num(int)` or `Text(string)`.
  - A stored entry is a single value `Point(v)` or a closed interval
    `Span(lo, hi)`. The interval is the `[start, end]` list that the
    numeric picker stores.
  - Python's `sorted`, which raises on values of mixed kinds.
  - The total order that pandas' grouping uses: numbers before texts.
  - `unique()`, which keeps values in order of first appearance.
- `Frames` (`frame.dfy`): a frame is a set of column names plus a sequence
  of rows. Each row is a map from column name to value. Boolean masks and
  order-preserving filtering are defined here.
- `FilterData` (`filter_data.dfy`): `filter_subset`, `and_filter_subset`
  and `filter_dataframe` of filter_data.py.
  - `filter_dataframe` is modelled three ways: exactly as written, on its
    effective `isin` branch, and with the interval branch reachable.
  - The session uses the filter exactly as written. The corrected filter
    has its own twins of the session steps.
- `StateMachine` (`state_machine.dfy`): `ClientStateMachine`.
- `Selections` (`store.dfy`): the store, with dictionary assignment and
  `pop`.
- `Text`, `UiSelection` (`text.dfy`, `ui_selection.dfy`): the categorical
  picker of ui.py.
  - Case-insensitive substring search.
  - Add, select all and deselect all.
- `DataProcessing` (`data_processing.dfy`): the pickers of
  data_processing.py.
  - The numeric range add and clear.
  - The categorical select all and add.
  - The multi-attribute delete.
- `Counting`, `Describe` (`counting.dfy`, `describe.dfy`): `count_table` of
  describe_data.py.
  - Pair tables with their Total row and column.
  - The "NaN" markers.
  - `combinations` order.
  - The single-attribute tally.
  - The corner cell of each pair table is chosen: as written, or the grand
    total it is meant to be.
- `Session` (`session.dfy`): the menu actions that move the whole session
  in ui.py: clear, enter describe, frequency table and discard.

Exceptions of the source are values of `Outcomes.Result` / `Outcomes.Error`.
A store mutation that can raise part-way returns the store as it stands at
the raise, together with the error (`Selections.Step`).

## Model

| member | source | states |
|---|---|---|
| `FilterData.FilterSubset` | filter_data.py:48-66 | A missing frame raises. Otherwise the call succeeds exactly when every filtered column exists; the error names the first missing column. The result keeps the input's columns and exactly the rows passing every test, in their original order. |
| `FilterData.NarrowEach` | filter_data.py:56-65 | Narrowing once per (column, value) pair, in list order, leaves the rows that pass all of the tests. It raises at the first pair whose column is absent. |
| `FilterData.FilterSubsetEmpty` | filter_data.py:56-66 | An empty filter list returns the frame unchanged. |
| `FilterData.FilterSubsetKeeps` | filter_data.py:59-65 | A row is kept iff, for every pair, its cell is in the list (list/tuple value) or equals the value. The output is an order-preserving subsequence of the input. |
| `FilterData.FilterSubsetMonotone` | filter_data.py:56-65 | Adding more pairs never adds rows: the longer filter's output is a subsequence of the shorter one's. |
| `FilterData.FoldOr` | filter_data.py:44 | Reducing the masks with `\|` yields, at each position, "some mask is true there". |
| `FilterData.AndFilterSubset` | filter_data.py:27-45 | An empty list returns the frame as is. Otherwise it succeeds exactly when all columns exist, and keeps the rows satisfying at least one condition. |
| `FilterData.AndFilterSubsetIsDisjunction` | filter_data.py:34-45 | A row survives iff it satisfies at least one condition: an OR, despite the name. |
| `FilterData.NarrowByKeys` | filter_data.py:9-22 | One narrowing per selected attribute, in the store's order. It raises `KeyError` at the first attribute that is not a column. |
| `FilterData.AllKeysOfStore` | filter_data.py:9 | Which rows survive does not depend on the order the attributes were added in. |
| `FilterData.FilterDataframe` | filter_data.py:6-24 | The `isin` branch. It succeeds iff every selected attribute is a column; otherwise the error names the first absent attribute in store order. It keeps the columns and exactly the rows whose cell is one of the stored values of each selected attribute. |
| `FilterData.FilterDataframeEmpty` | filter_data.py:7-24 | With nothing selected the result equals the input. |
| `FilterData.FilterDataframeKeeps` | filter_data.py:22 | Row membership in the result: the row is in the input and each selected attribute's cell is among that attribute's stored values. |
| `FilterData.FilterDataframeIgnoresUnselected` | filter_data.py:9-22 | Two frames that agree on the selected columns build the same boolean mask. Each keeps its own rows at exactly the mask's true positions, so both keep the same number of rows. |
| `FilterData.SpanMask` | filter_data.py:13-19 | The OR of one `(cell >= start) & (cell <= end)` mask per interval holds exactly where the cell lies in some interval. |
| `FilterData.FilterDataframeWithIntervals` | filter_data.py:10-22 | The filter with the interval branch reachable. An attribute whose entries are all intervals keeps the rows inside some interval; the others go through `isin`. Errors and columns are as for `FilterDataframe`. |
| `FilterData.IntervalsAgreeOnPoints` | filter_data.py:10-22 | When only single values are stored, the two filters give the same result. |
| `FilterData.SpanMaskIsInSomeSpan` | filter_data.py:13-20 | The interval branch's mask is the per-row interval test that the corrected filter applies. |
| `FilterData.IntervalsInclusive` | filter_data.py:17-19 | With the interval `[lo, hi]` stored, exactly the rows whose cell is a number with `lo <= cell <= hi` survive. Both bounds are inclusive. |
| `FilterData.IntervalSelectionDropsEveryRow` | filter_data.py:10-22 | Under the guard as written, a stored interval reaches `isin` and every row is dropped. |
| `FilterData.YearSelectionRaisesAsWritten` | filter_data.py:10 | On the selection `YEAR: [1996]`, the code as written raises `NameError`. The corrected filter keeps the matching row. |
| `FilterData.FilterDataframeAsWritten` | filter_data.py:6-24 | As written, the call succeeds iff nothing is selected, and then returns the frame unchanged. Any selection raises `NameError` for `categorical_attributes`, because the guard on line 10 is evaluated before any filtering. |
| `FilterData.AsWrittenAgreesOnlyWhenEmpty` | filter_data.py:6-24 | On the empty selection the code as written and both corrected filters return the frame unchanged. On any other selection whose attributes are columns, the code as written raises while both corrected filters succeed. |
| `StateMachine.StateId` | ClientStateMachine.py:6-11 | Exactly the four state names are known, and each has a number in 0..3. |
| `StateMachine.StateName` | ClientStateMachine.py:6-11 | Every number 0..3 names a state whose number it is, so names and numbers correspond one to one. |
| `StateMachine.Init` | ClientStateMachine.py:12 | A fresh machine is in "State Choosing", state 0. |
| `StateMachine.GetState` | ClientStateMachine.py:14-21 | The state read back is always one of 0..3. |
| `StateMachine.SetState` | ClientStateMachine.py:23-36 | A known name moves the machine to that name's number. An unknown name, and only an unknown name, raises `ValueError`. |
| `StateMachine.EveryStateReachable` | ClientStateMachine.py:33-34 | There are no guards: every state reaches every state in one call. |
| `StateMachine.SetStateIdempotent` | ClientStateMachine.py:33-34 | Setting a name twice equals setting it once, and the result does not depend on the prior state. |
| `StateMachine.NamesAreDistinct` | ClientStateMachine.py:6-11 | Two names with the same number are the same name. |
| `Selections.Put` | ui.py:122 | Assigning a key keeps the store consistent. An existing key keeps its place; a new key goes last, as in a Python dict. |
| `Selections.Remove` | data_processing.py:135-143 | `pop(attr, None)`: exactly that key is removed, and the remaining keys keep their relative order; the removed key's position is cut out of the key order. It is a no-op when the key is absent. Categorical `deselect_all` at data_processing.py:223-231 is the same call. |
| `Values.Unique` | ui.py:33 | `unique()` returns each value of the column exactly once, and nothing else, in order of first appearance: a value listed earlier first occurs in the column before every occurrence of a value listed later. |
| `Values.PySorted` | data_processing.py:181 | `sorted` succeeds iff all entries are of one comparable kind. The result is then an ascending permutation of its input. |
| `Text.Contains` | ui.py:30 | Python's `in` on strings: true iff the needle occurs at some position of the haystack. |
| `UiSelection.Matching` | ui.py:27-31 | The values kept are exactly those whose lower-cased `str` contains the lower-cased search text. |
| `UiSelection.GetFilteredValues` | ui.py:25-33 | The result holds no value twice. With empty search text it holds all column values; otherwise exactly the matching ones. |
| `UiSelection.FilteredValuesIsSearch` | ui.py:25-33 | The empty-search branch agrees with the search branch, because the empty text occurs in every string. |
| `UiSelection.OptionList` | ui.py:36 | `sorted(get_filtered_values(...))` succeeds iff the values are of one kind. The options are then ascending, distinct, and exactly the filtered values. |
| `UiSelection.AddSelection` | ui.py:103-123 | Choosing nothing leaves the store unchanged. A new attribute stores the choice. An existing attribute keeps its old list as a prefix. Every appended entry is a chosen value the old list lacked, in the order chosen. Every such value ends up in the list, and with a choice without repeats, each is appended exactly once. No other key changes. |
| `UiSelection.Fresh` | ui.py:114 | The chosen values not already stored, and only those, in the order chosen; no repeats when the choice has none. |
| `UiSelection.FreshOnce` | ui.py:114-116 | With a choice without repeats, appending the fresh values adds each chosen value the list lacks exactly once, and nothing else. |
| `UiSelection.AddSelectionIdempotent` | ui.py:112-119 | Repeating the same add changes nothing. |
| `UiSelection.SelectAll` | ui.py:82-90 | The attribute's entry becomes the picker's current option list as it stands. It cannot raise. An existing attribute keeps its place and a new one goes last. No other key changes. |
| `UiSelection.SelectAllStoresMatches` | ui.py:36-48 | When the options come from the current search, select all stores exactly the column's matching values, ascending and each once. |
| `UiSelection.SelectAllThenDeselect` | ui.py:82-101 | Deselect all after select all leaves exactly the other keys, with their entries. |
| `UiSelection.DeselectAllIsClear` | ui.py:92-101 | Deselect is `pop`: the attribute is gone, the rest is unchanged, and it is a no-op when the attribute is absent. |
| `DataProcessing.RangeHits` | data_processing.py:122-126 | The picked column values `v` with `start <= v <= end`, each once. |
| `DataProcessing.SortedHits` | data_processing.py:121-127 | The entry for a new attribute is sorted, distinct, and holds exactly the in-range column values. |
| `DataProcessing.ScanIn` | data_processing.py:106 | `item not in values` for a column number scans the list in order and stops at an equal entry. It raises `ValueError` iff it meets a stored interval before any equal entry. Otherwise it answers membership. |
| `DataProcessing.AbsentChecked` | data_processing.py:102-108 | The comprehension raises iff the scan raises for some in-range value. Otherwise it yields the in-range values not stored. |
| `DataProcessing.Extended` | data_processing.py:99-108 | Raises iff the scan meets an interval for some in-range value. Otherwise the old list stays a prefix, only in-range values are appended, and each in-range value the list lacked is appended exactly once. The appended values keep the order of the column's unique values. |
| `DataProcessing.NumericAdd` | data_processing.py:83-133 | A list pick appends the closed interval. A tuple pick on a new attribute stores the sorted in-range values. A tuple pick on an existing attribute raises `ValueError` with the store unchanged iff the membership scan meets a stored interval. Otherwise each in-range value the entry lacked is added exactly once, and the entry is re-sorted. If it cannot be sorted, it raises after the extend: `ValueError` iff the entry holds no text (it then holds a number and an interval), `TypeError` otherwise. No other key changes. |
| `DataProcessing.TuplePickOnStored` | data_processing.py:99-111 | The existing-attribute tuple pick: `ValueError` in the scan with nothing changed iff the scan meets an interval. Otherwise each missing in-range value is added once, the entry is re-sorted, and a failed sort raises `ValueError` for numbers next to intervals and `TypeError` when a text is involved. |
| `DataProcessing.UnorderableWithoutText` | data_processing.py:109 | A list `sorted` cannot order that holds no text holds a number and an interval. That is the comparison that gives a numpy boolean array. |
| `DataProcessing.NumberBeforeIntervalRaisesOnSort` | data_processing.py:99-109 | Take an entry `[x, [lo, hi]]` and a tuple pick whose only in-range value is `x`. The scan finds `x` before the interval, nothing is appended, and `sorted` raises `ValueError` with the store unchanged. |
| `DataProcessing.Absent` | data_processing.py:103-107 | The in-range values not already stored, and only those. |
| `DataProcessing.AbsentDistinct` | data_processing.py:103-107 | Distinct hits leave distinct absent values, in the hits' order. |
| `DataProcessing.NumericAddInclusive` | data_processing.py:106 | Unless the pick raised `ValueError`, both range bounds are stored when they occur in the column. |
| `DataProcessing.TuplePickSettles` | data_processing.py:99-111 | After a tuple pick that did not raise `ValueError`, nothing in range is missing from the entry. The entry is sorted unless sorting raised. |
| `DataProcessing.QuietAfterExtend` | data_processing.py:102-109 | If the first scan met no interval, neither does a scan of the extended list, sorted or not. |
| `DataProcessing.SortedQuiet` | data_processing.py:109 | A sortable list holding every in-range value has no interval for a later scan to meet. |
| `DataProcessing.RepeatPickScansQuietly` | data_processing.py:99-111 | After a tuple pick that did not raise `ValueError`, the same pick's scan meets no interval. |
| `DataProcessing.TuplePickOnSettled` | data_processing.py:99-111 | A tuple pick on an entry that already holds every in-range value, meets no interval, and is sorted if sortable, changes nothing. |
| `DataProcessing.NumericAddIdempotent` | data_processing.py:99-111 | Repeating a tuple pick leaves the store unchanged, including after one that raised. |
| `DataProcessing.CategoricalSelectAll` | data_processing.py:212-221 | The entry becomes the column's distinct values in ascending order. A column mixing kinds raises and leaves the store alone. |
| `DataProcessing.CategoricalAdd` | data_processing.py:233-257 | As written: choosing nothing is a no-op and a new attribute stores the choice. An existing attribute raises at `extend()` with nothing changed. |
| `DataProcessing.CategoricalAddAgrees` | data_processing.py:240-256 | Whenever it does not raise, the categorical add equals the search picker's add. |
| `DataProcessing.CategoricalAddRaisesOnExisting` | data_processing.py:251 | Adding "F" to a stored "M" raises, where the intended add stores both. |
| `DataProcessing.DeleteEach` | data_processing.py:315-318 | Popping each chosen attribute in turn succeeds iff the choices are distinct and all present. Kept entries are never altered. |
| `DataProcessing.DeleteEachRemovesChosen` | data_processing.py:315-318 | When the loop gets through, exactly the chosen keys are gone. |
| `DataProcessing.DeleteEachStopsAtMissing` | data_processing.py:315-318 | When the loop raises, the `KeyError` names a chosen attribute, and exactly the attributes chosen before it are already removed. |
| `DataProcessing.Delete` | data_processing.py:309-325 | Choosing nothing changes nothing. Otherwise exactly the chosen attributes are removed and every other entry keeps its value. |
| `Counting.SumCountsIsTotal` | describe_data.py:15 | Counting the rows once per distinct group key adds up to the number of rows. |
| `Counting.PairCountNarrowed` | describe_data.py:15 | The count of a combination is the count of one value among the rows already narrowed to the other. |
| `Counting.RowSumIsCount` | describe_data.py:16 | The sum across a row of the pair table is the number of rows with that row's value. |
| `Counting.ColumnSumIsCount` | describe_data.py:17 | The sum down a column of the pair table is the number of rows with that column's value. |
| `Counting.GridSumIsTotal` | describe_data.py:18 | All count cells together sum to the number of rows. |
| `Counting.ColumnSumsIsTotal` | describe_data.py:17-18 | All column totals together sum to the number of rows. |
| `Describe.GroupKeys` | describe_data.py:15 | The labels `groupby` forms: every value of the column, once each, in ascending order. |
| `Describe.PairTableWith` | describe_data.py:15-17 | The table has a cell at exactly every (row label, column label) position. The labels are the group keys followed by Total. |
| `Describe.PairTableLabels` | describe_data.py:15-17 | Row and column labels are distinct. They are exactly the group keys plus Total. |
| `Describe.PairTableCells` | describe_data.py:15-17 | Each count cell holds the number of rows with that combination, and 0 when there is none. The Total column holds the row's value count, and the Total row the column's value count. |
| `Describe.CornerAsWrittenValue` | describe_data.py:18 | The sum of every entry once the totals are in place is four times the number of rows. |
| `Describe.CornerIsFourTimesRows` | describe_data.py:18 | The corner cell of the table as written holds 4 × (number of rows). |
| `Describe.PairTableCounts` | describe_data.py:15-20 | The table over a frame: labels are the observed values once each, then Total. Cells count combinations and totals count values. The corner is 4 × rows as written and the number of rows when corrected. |
| `Describe.Expand` | describe_data.py:27-35 | An interval stands for every integer from start to end, inclusive. A single value stands for itself. |
| `Describe.ExpandAll` | describe_data.py:26-39 | The values visited for one attribute are those of its entries. |
| `Describe.MarkedFrom` | describe_data.py:22-24 | Only attributes in the pair contribute values. Empty selections and other attributes contribute nothing. |
| `Describe.MarkedValues` | describe_data.py:22-39 | The visited values are exactly the values stored for either attribute of the pair. |
| `Describe.MarkRow` | describe_data.py:30-31 | A value that is not a row label becomes a last row of "NaN". The existing cells are unchanged. |
| `Describe.MarkColumn` | describe_data.py:32-33 | A value that is not a column label becomes a last column of "NaN", down every row including Total. The existing cells are unchanged. |
| `Describe.Mark` | describe_data.py:30-39 | One pass of the loop: the value becomes a row label and a column label if it was not one already. Labels stay distinct, nothing else is added, old cells are kept, and new cells are "NaN". |
| `Describe.AddMarkers` | describe_data.py:26-39 | The old labels stay a prefix, old cells keep their contents, and every new cell is "NaN". |
| `Describe.AddMarkersLabels` | describe_data.py:26-39 | Every visited value ends up as a row label and a column label. No other label is added and no label appears twice. |
| `Describe.CreateCountTable` | describe_data.py:14-41 | Labels are the observed values and the selected values of the pair, once each, plus Total. The marker labels come after the pair table's labels, in the order the loop visits the selected values. The pair table's cells are kept and every added cell is "NaN". The corner is 4 × rows with the corner as written, and the number of rows when corrected. |
| `Describe.NoMarkersWithoutSelection` | describe_data.py:22-24 | Without stored values for the pair's attributes the table is the plain pair table. |
| `Describe.CountTableCells` | describe_data.py:15-39 | A position holds a count iff both of its labels were observed (or are Total). |
| `Describe.Unobserved` | describe_data.py:59-63 | Appended are exactly the stored entries whose value was not counted. Each appears once, in storage order after the earlier ones: the appended part is an order-preserving subsequence of the stored entries. |
| `Describe.ValueCounts` | describe_data.py:55-63 | The tally counts exactly the observed values, each with its positive number of rows. The unobserved stored entries follow, each once, in storage order. |
| `Describe.Combinations` | describe_data.py:45 | `combinations(keys, 2)` has k(k-1)/2 elements: exactly the pairs whose first key comes before the second. The pair at positions (i, j) sits at place `PairIndex(k, i, j)`. |
| `Describe.PairIndexOrdered` | describe_data.py:45 | `PairIndex` grows with the lexicographic order of position pairs. So `combinations` lists the first key's pairs first, each group in the second key's order. |
| `Describe.CountTables` | describe_data.py:10-70 | No attribute gives "Nothing selected". One attribute gives its tally. Two or more give one table per pair, in combinations order, each with the chosen corner. A selected attribute that is not a column raises `KeyError` for the first such attribute. |
| `Session.MainMenu` | ui.py:287-296 | Entering the main menu sets state 0 and leaves the selections as they are. |
| `Session.ClearSelections` | ui.py:309-311 | "Clear selections" empties the store and returns to state 0. |
| `Session.EnterDescribe` | ui.py:382-394 | As written: with anything selected the filter raises `NameError` and the handler at lines 312-313 returns to the main menu with the store unchanged. With nothing selected, state 2 is entered and the filtered frame is the frame. |
| `Session.EnterDescribeCorrected` | ui.py:382-394 | With the corrected filter: state 2 is entered, holding the filtered rows, iff every selected attribute is a column. Otherwise the handler returns to the main menu. The store is unchanged. |
| `Session.FrequencyTable` | ui.py:396-412 | As written: refiltering with anything selected raises `NameError`, which is not caught there. With nothing selected it reports "Nothing selected". |
| `Session.FrequencyTableCorrected` | ui.py:396-412 | With the corrected filter, refiltering raises iff some selected attribute is not a column. With nothing selected it reports "Nothing selected". |
| `Session.FrequencyTableAfterDescribe` | ui.py:384-412 | As written, the describe menu is only reached with nothing selected, and its "Frequency Table" then reports exactly that. |
| `Session.FrequencyTableAfterDescribeCorrected` | ui.py:384-412 | With the corrected filter, once the describe menu is entered, "Frequency Table" cannot raise. |
| `Session.DiscardDataframe` | ui.py:415-418 | "Discard Dataframe" drops the filtered frame and the selections, and returns to state 0. |
| `Session.ResetsSelectNothing` | ui.py:415-418 | After a reset both frequency tables report nothing selected, and both the filter as written and the corrected one keep every row. |

## Left out

- Plotting, Excel export and download buttons, Drive mounting, session
  bootstrapping, the `FilterOptionWidget` component, `summary_statistics`
  and `head_exception`. These are rendering or host I/O, or floating-point
  aggregation.
- Widget construction, `display` and `print`, and menu re-entry used as
  control flow. The pickers' widget state (selected category, search text,
  chosen values, slider pick) is a parameter. The menus outside the
  describe and main menus are left out.
- pandas dtype detection. A numeric picker's column is given as integers,
  and the classification into numeric and categorical attributes is taken
  as given. Float values and NaN cells are not modelled, so no row is
  dropped by grouping.
- ui.py and data_processing.py each declare their own module-level
  `selections`. The model uses one store for both.
- `Text.Lower`: only ASCII letters are case-folded. Python's `lower()`
  folds all of Unicode.
- `Text.Repr`: `str()` is modelled for integers and strings only.
- `FilterData.IsIn`: a stored interval (a Python list) matches no cell. The
  source's pandas may raise on such an unhashable value instead.
- `FilterData.InSpan`: a text cell counts as outside every interval. In
  Python, comparing text with a number raises.
- `Describe.Label`: a column value equal to the text "Total" would share
  the Total row or column in pandas. The model keeps the two labels apart.
- `Describe.ValueCounts`: the row order of `value_counts` (by decreasing
  count) is not kept. The tally is a map from value to count.
- `Describe.Unobserved`: whether a stored interval is "in" the tally's
  values is decided by entry equality. numpy's element-wise `in` on a list
  value is not modelled.
- `DataFrame.append` (describe_data.py:61) is taken to exist, as in
  pandas 1.x. Later pandas versions removed it.
- `DataProcessing.NumericAddInclusive` and `DataProcessing.TuplePickSettles`
  promise their facts only for picks that did not raise `ValueError`,
  because such a pick stores nothing.
- `DataProcessing.NumericAdd`: the model decides which exception a failed
  re-sort raises from the kinds in the entry. It does not track whether a
  stored number is a numpy value or a plain Python one. The numbers this
  picker stores come from `unique()` and are numpy values, and the model
  assumes that for every number. A plain `int` stored by the search picker
  next to an interval makes `sorted` raise `TypeError`, where the model
  says `ValueError`. When an entry holds a text as well as numbers and
  intervals, the model says `TypeError`. `sorted` may compare a number with
  an interval first and raise `ValueError` instead.
- `UiSelection.SelectAll`: the option list is a parameter. Which earlier
  search put it there is widget state and is not modelled, so when the
  last re-sort of the options raised, the stale list is what gets stored.

## Findings

| source | as written | input that shows it | evidently intended | confidence | as-written member | corrected member |
|---|---|---|---|---|---|---|
| filter_data.py:10 | The guard reads `categorical_attributes`, a name filter_data.py never defines or imports. | One row with `YEAR = 1996` and the selection `{"YEAR": [1996]}`: `NameError` is raised. | The filter runs and keeps the row. | high, not executed | `FilterData.YearSelectionRaisesAsWritten` | `FilterData.FilterDataframeWithIntervals` |
| filter_data.py:10-12 | `attribute is categorical_attributes` tests a string for identity with a list, so it is never true. Interval entries therefore reach `isin`. | The selection `{a: [[lo, hi]]}`: every row is dropped, including rows with `lo <= cell <= hi`. | Interval entries keep the rows inside some interval, bounds included. | medium, not executed | `FilterData.IntervalSelectionDropsEveryRow` | `FilterData.IntervalsInclusive` |
| data_processing.py:251 | `extend()` is called with no argument, so adding to an existing categorical attribute raises `TypeError`. | `{"SEX": ["M"]}`, then add `["F"]`: it raises. | `{"SEX": ["M", "F"]}`: the computed `changes` appended. | high, not executed | `DataProcessing.CategoricalAddRaisesOnExisting` | `UiSelection.AddSelection` |
| describe_data.py:18 | The corner is overwritten with `values.sum()` after the Total row and column exist. That sum counts every row four times. | Any frame of N rows and any two attributes: the corner is 4N. With one row, it is 4. | The corner is the grand total, N. | high, not executed | `Describe.CornerIsFourTimesRows` | `Describe.PairTableCounts` |

=== FILE: counting.dfy ===
/** Counting rows by the values of one or two columns, and the sums the
    cross-tabulation adds up. */
module Counting {
  import opened Values
  import opened Frames

  /** The row has value `v` in column `c`. */
  function Has(c: string, v: Value): Row -> bool {
    row => c in row && row[c] == v
  }

  /** The row has `a` in column `A` and `b` in column `B`. */
  function HasBoth(A: string, a: Value, B: string, b: Value): Row -> bool {
    row => Has(A, a)(row) && Has(B, b)(row)
  }

  /** Number of rows with value `v` in column `c`. */
  function CountEq(rows: seq<Row>, c: string, v: Value): nat {
    |Keep(rows, Has(c, v))|
  }

  /** Number of rows with the combination `(a, b)`. */
  function PairCount(rows: seq<Row>, A: string, a: Value, B: string, b: Value): nat {
    |Keep(rows, HasBoth(A, a, B, b))|
  }

  /** `sum(CountEq(rows, c, v) for v in vs)`. */
  function SumCounts(rows: seq<Row>, c: string, vs: seq<Value>): nat
    decreases |vs|
  {
    if |vs| == 0 then 0 else CountEq(rows, c, vs[0]) + SumCounts(rows, c, vs[1..])
  }

  /** The sum across one row of the pair table: `a` fixed, `b` ranging
      over `bvs`. */
  function RowSum(rows: seq<Row>, A: string, a: Value, B: string, bvs: seq<Value>): nat
    decreases |bvs|
  {
    if |bvs| == 0 then 0 else PairCount(rows, A, a, B, bvs[0]) + RowSum(rows, A, a, B, bvs[1..])
  }

  /** The sum down one column of the pair table: `b` fixed, `a` ranging
      over `avs`. */
  function ColumnSum(rows: seq<Row>, A: string, avs: seq<Value>, B: string, b: Value): nat
    decreases |avs|
  {
    if |avs| == 0 then 0 else PairCount(rows, A, avs[0], B, b) + ColumnSum(rows, A, avs[1..], B, b)
  }

  /** The sum of all row sums: every count cell of the table once. */
  function GridSum(rows: seq<Row>, A: string, avs: seq<Value>, B: string, bvs: seq<Value>): nat
    decreases |avs|
  {
    if |avs| == 0 then 0 else RowSum(rows, A, avs[0], B, bvs) + GridSum(rows, A, avs[1..], B, bvs)
  }

  /** The sum of all column sums. */
  function ColumnSums(rows: seq<Row>, A: string, avs: seq<Value>, B: string, bvs: seq<Value>): nat
    decreases |bvs|
  {
    if |bvs| == 0 then 0 else ColumnSum(rows, A, avs, B, bvs[0]) + ColumnSums(rows, A, avs, B, bvs[1..])
  }

  /** Number of positions of `vs` holding `x`. */
  function Occurrences(vs: seq<Value>, x: Value): nat
    decreases |vs|
  {
    if |vs| == 0 then 0 else (if vs[0] == x then 1 else 0) + Occurrences(vs[1..], x)
  }

  lemma {:induction false} OccursOnceInDistinct(vs: seq<Value>, x: Value)
    requires Distinct(vs)
    ensures Occurrences(vs, x) == if x in vs then 1 else 0
    decreases |vs|
  {
    if |vs| > 0 {
      OccursOnceInDistinct(vs[1..], x);
      assert vs[0] !in vs[1..];
      assert x in vs <==> x == vs[0] || x in vs[1..];
    }
  }

  /** Every row has column `c`, with a value listed in `vs`. */
  ghost predicate Covers(rows: seq<Row>, c: string, vs: seq<Value>) {
    forall i :: 0 <= i < |rows| ==> c in rows[i] && rows[i][c] in vs
  }

  lemma {:induction false} SumCountsStep(rows: seq<Row>, c: string, vs: seq<Value>)
    requires |rows| > 0 && c in rows[0]
    ensures SumCounts(rows, c, vs) == Occurrences(vs, rows[0][c]) + SumCounts(rows[1..], c, vs)
    decreases |vs|
  {
    if |vs| > 0 {
      SumCountsStep(rows, c, vs[1..]);
    }
  }

  /** Counting the rows once per distinct value adds up to all the rows,
      when the values listed are distinct and cover every row. */
  lemma {:induction false} SumCountsIsTotal(rows: seq<Row>, c: string, vs: seq<Value>)
    requires Distinct(vs) && Covers(rows, c, vs)
    ensures SumCounts(rows, c, vs) == |rows|
    decreases |rows|
  {
    if |rows| == 0 {
      SumCountsOfNoRows(c, vs);
    } else {
      SumCountsStep(rows, c, vs);
      OccursOnceInDistinct(vs, rows[0][c]);
      SumCountsIsTotal(rows[1..], c, vs);
    }
  }

  lemma {:induction false} SumCountsOfNoRows(c: string, vs: seq<Value>)
    ensures SumCounts([], c, vs) == 0
    decreases |vs|
  {
    if |vs| > 0 {
      SumCountsOfNoRows(c, vs[1..]);
    }
  }

  /** A pair count is a count among the rows already narrowed to one value
      of either attribute. */
  lemma PairCountNarrowed(rows: seq<Row>, A: string, a: Value, B: string, b: Value)
    ensures PairCount(rows, A, a, B, b) == CountEq(Keep(rows, Has(A, a)), B, b)
    ensures PairCount(rows, A, a, B, b) == CountEq(Keep(rows, Has(B, b)), A, a)
  {
    KeepKeep(rows, Has(A, a), Has(B, b), HasBoth(A, a, B, b));
    KeepKeep(rows, Has(B, b), Has(A, a), HasBoth(A, a, B, b));
  }

  lemma {:induction false} RowSumNarrowed(rows: seq<Row>, A: string, a: Value, B: string, bvs: seq<Value>)
    ensures RowSum(rows, A, a, B, bvs) == SumCounts(Keep(rows, Has(A, a)), B, bvs)
    decreases |bvs|
  {
    if |bvs| > 0 {
      PairCountNarrowed(rows, A, a, B, bvs[0]);
      RowSumNarrowed(rows, A, a, B, bvs[1..]);
    }
  }

  lemma {:induction false} ColumnSumNarrowed(rows: seq<Row>, A: string, avs: seq<Value>, B: string, b: Value)
    ensures ColumnSum(rows, A, avs, B, b) == SumCounts(Keep(rows, Has(B, b)), A, avs)
    decreases |avs|
  {
    if |avs| > 0 {
      PairCountNarrowed(rows, A, avs[0], B, b);
      ColumnSumNarrowed(rows, A, avs[1..], B, b);
    }
  }

  lemma CoversNarrowed(rows: seq<Row>, c: string, vs: seq<Value>, p: Row -> bool)
    requires Covers(rows, c, vs)
    ensures Covers(Keep(rows, p), c, vs)
  {
    KeepMembers(rows, p);
    forall i | 0 <= i < |Keep(rows, p)| ensures c in Keep(rows, p)[i] && Keep(rows, p)[i][c] in vs {
      assert Keep(rows, p)[i] in rows;
    }
  }

  /** The sum across a row of the pair table is the number of rows with
      that row's value. */
  lemma RowSumIsCount(rows: seq<Row>, A: string, a: Value, B: string, bvs: seq<Value>)
    requires Distinct(bvs) && Covers(rows, B, bvs)
    ensures RowSum(rows, A, a, B, bvs) == CountEq(rows, A, a)
  {
    RowSumNarrowed(rows, A, a, B, bvs);
    CoversNarrowed(rows, B, bvs, Has(A, a));
    SumCountsIsTotal(Keep(rows, Has(A, a)), B, bvs);
  }

  /** The sum down a column of the pair table is the number of rows with
      that column's value. */
  lemma ColumnSumIsCount(rows: seq<Row>, A: string, avs: seq<Value>, B: string, b: Value)
    requires Distinct(avs) && Covers(rows, A, avs)
    ensures ColumnSum(rows, A, avs, B, b) == CountEq(rows, B, b)
  {
    ColumnSumNarrowed(rows, A, avs, B, b);
    CoversNarrowed(rows, A, avs, Has(B, b));
    SumCountsIsTotal(Keep(rows, Has(B, b)), A, avs);
  }

  /** All count cells together count every row once. */
  lemma {:induction false} GridSumIsTotal(rows: seq<Row>, A: string, avs: seq<Value>, B: string, bvs: seq<Value>)
    requires Distinct(bvs) && Covers(rows, B, bvs)
    ensures GridSum(rows, A, avs, B, bvs) == SumCounts(rows, A, avs)
    decreases |avs|
  {
    if |avs| > 0 {
      RowSumIsCount(rows, A, avs[0], B, bvs);
      GridSumIsTotal(rows, A, avs[1..], B, bvs);
    }
  }

  lemma {:induction false} ColumnSumsIsTotal(rows: seq<Row>, A: string, avs: seq<Value>, B: string, bvs: seq<Value>)
    requires Distinct(avs) && Covers(rows, A, avs)
    ensures ColumnSums(rows, A, avs, B, bvs) == SumCounts(rows, B, bvs)
    decreases |bvs|
  {
    if |bvs| > 0 {
      ColumnSumIsCount(rows, A, avs, B, bvs[0]);
      ColumnSumsIsTotal(rows, A, avs, B, bvs[1..]);
    }
  }
}

=== FILE: data_processing.dfy ===
/** The selection callbacks of data_processing.py: the numeric range
    picker, the categorical picker, and the multi-delete. */
module DataProcessing {
  import opened Values
  import opened Outcomes
  import opened Selections
  import opened UiSelection

  // ---------------------------------------------------------------------
  // numeric_selections
  // ---------------------------------------------------------------------

  /** What the range picker hands over: the slider's `(start, end)` tuple,
      or a `[start, end]` list, which is stored as a closed interval. */
  datatype Picked = TupleRange(start: int, end: int) | ListRange(start: int, end: int)

  /** A number of the column within `start..end`, bounds included. */
  predicate InRange(x: Item, column: seq<int>, start: int, end: int) {
    x.Point? && x.v.Num? && x.v.n in column && start <= x.v.n <= end
  }

  /** `[item for item in column.unique() if start <= item <= end]`. */
  function RangeHits(unique: seq<int>, start: int, end: int): (r: seq<Item>)
    ensures forall x :: x in r <==> InRange(x, unique, start, end)
    ensures Distinct(unique) ==> Distinct(r)
    ensures forall i :: 0 <= i < |r| ==> r[i].Point? && r[i].v.Num?
    decreases |unique|
  {
    if |unique| == 0 then []
    else
      var rest := RangeHits(unique[1..], start, end);
      assert forall n :: n in unique <==> n == unique[0] || n in unique[1..];
      assert Distinct(unique) ==> unique[0] !in unique[1..] && Distinct(unique[1..]);
      assert Distinct(unique) ==> Point(Num(unique[0])) !in rest;
      if start <= unique[0] <= end then [Point(Num(unique[0]))] + rest else rest
  }

  lemma HitsOrderable(xs: seq<Item>)
    requires forall i :: 0 <= i < |xs| ==> xs[i].Point? && xs[i].v.Num?
    ensures Orderable(xs)
  {
  }

  lemma {:induction false} SortedKeepsMembers(xs: seq<Item>, ys: seq<Item>)
    requires multiset(xs) == multiset(ys)
    ensures forall x :: x in xs <==> x in ys
  {
    forall x ensures x in xs <==> x in ys {
      assert x in xs <==> x in multiset(xs);
      assert x in ys <==> x in multiset(ys);
    }
  }

  /** The numbers of the column in `start..end`, sorted, each once: what a
      first tuple pick stores. */
  function SortedHits(column: seq<int>, start: int, end: int): (r: seq<Item>)
    ensures Sorted(r) && Distinct(r)
    ensures forall x :: x in r <==> InRange(x, column, start, end)
  {
    var hits := RangeHits(Unique(column), start, end);
    var r := Sort(hits);
    DistinctByMultiset(hits, r);
    SortedKeepsMembers(hits, r);
    r
  }

  /** `x in values` as Python evaluates it for a column value `x`, a numpy
      number: the entries are compared in order and the scan stops at the
      first equal one. Comparing the number with a stored `[start, end]`
      list gives a two-element boolean array, whose truth value raises
      `ValueError`; that is `None` here. */
  function ScanIn(x: Item, values: seq<Item>): (r: Option<bool>)
    requires x.Point? && x.v.Num?
    ensures r.None? <==> exists j :: 0 <= j < |values| && values[j].Span? && x !in values[..j]
    ensures r.Some? ==> r.value == (x in values)
    decreases |values|
  {
    if |values| == 0 then Some(false)
    else if values[0] == x then
      assert forall j :: 0 < j < |values| ==> x in values[..j] by {
        forall j | 0 < j < |values| ensures x in values[..j] {
          assert values[..j][0] == x;
        }
      }
      Some(true)
    else if values[0].Span? then
      assert values[..0] == [];
      None
    else
      var r := ScanIn(x, values[1..]);
      assert forall j :: 0 < j <= |values| ==> values[..j] == [values[0]] + values[1..][..j - 1];
      assert (exists j :: 0 <= j < |values| && values[j].Span? && x !in values[..j]) <==>
        (exists j :: 0 <= j < |values[1..]| && values[1..][j].Span? && x !in values[1..][..j])
      by {
        if exists j :: 0 <= j < |values| && values[j].Span? && x !in values[..j] {
          var j :| 0 <= j < |values| && values[j].Span? && x !in values[..j];
          assert values[1..][j - 1].Span? && x !in values[1..][..j - 1];
        }
        if exists j :: 0 <= j < |values[1..]| && values[1..][j].Span? && x !in values[1..][..j] {
          var j :| 0 <= j < |values[1..]| && values[1..][j].Span? && x !in values[1..][..j];
          assert values[j + 1].Span? && x !in values[..j + 1];
        }
      }
      assert x in values <==> x in values[1..];
      r
  }

  /** `[item for item in hits if item not in values]` with the scan above:
      `None` when some hit's scan raises, the absent hits otherwise. */
  function AbsentChecked(hits: seq<Item>, values: seq<Item>): (r: Option<seq<Item>>)
    requires forall i :: 0 <= i < |hits| ==> hits[i].Point? && hits[i].v.Num?
    ensures r.None? <==> exists i :: 0 <= i < |hits| && ScanIn(hits[i], values).None?
    ensures r.Some? ==> r.value == Absent(hits, values)
    decreases |hits|
  {
    if |hits| == 0 then Some([])
    else
      match ScanIn(hits[0], values)
      case None => None
      case Some(found) =>
        var rest := AbsentChecked(hits[1..], values);
        ScanRaisesLater(hits, values);
        match rest
        case None => None
        case Some(added) => if found then Some(added) else Some([hits[0]] + added)
  }

  /** When the first hit's scan does not raise, some hit's scan raises
      exactly when some later hit's scan does. */
  lemma ScanRaisesLater(hits: seq<Item>, values: seq<Item>)
    requires |hits| > 0 && forall i :: 0 <= i < |hits| ==> hits[i].Point? && hits[i].v.Num?
    requires ScanIn(hits[0], values).Some?
    ensures (exists i :: 0 <= i < |hits| && ScanIn(hits[i], values).None?) <==>
      (exists i :: 0 <= i < |hits[1..]| && ScanIn(hits[1..][i], values).None?)
  {
    if exists i :: 0 <= i < |hits| && ScanIn(hits[i], values).None? {
      var i :| 0 <= i < |hits| && ScanIn(hits[i], values).None?;
      assert hits[1..][i - 1] == hits[i];
    }
    if exists i :: 0 <= i < |hits[1..]| && ScanIn(hits[1..][i], values).None? {
      var i :| 0 <= i < |hits[1..]| && ScanIn(hits[1..][i], values).None?;
      assert hits[i + 1] == hits[1..][i];
    }
  }

  /** While `not in` scans the stored list for an in-range value of the
      column, it meets a stored interval before any equal entry. */
  ghost predicate ScanMeetsInterval(current: seq<Item>, column: seq<int>, start: int, end: int) {
    exists x, j :: InRange(x, column, start, end) && 0 <= j < |current| && current[j].Span? && x !in current[..j]
  }

  /** The comprehension of lines 102-108 and the `extend` after it: `None`
      when the scan raises `ValueError`, otherwise the stored list with the
      in-range values it lacks appended, each once, in the column's order
      of first appearance. */
  function Extended(current: seq<Item>, column: seq<int>, start: int, end: int): (r: Option<seq<Item>>)
    ensures r.None? <==> ScanMeetsInterval(current, column, start, end)
    ensures r.Some? ==> current <= r.value
    ensures r.Some? ==> forall x :: x in r.value <==> x in current || InRange(x, column, start, end)
    ensures r.Some? ==> forall x ::
      multiset(r.value)[x] == multiset(current)[x] + (if InRange(x, column, start, end) && x !in current then 1 else 0)
    ensures r.Some? ==> forall i :: |current| <= i < |r.value| ==> InRange(r.value[i], column, start, end)
    ensures r.Some? ==> IsSubseq(r.value[|current|..], RangeHits(Unique(column), start, end))
  {
    var hits := RangeHits(Unique(column), start, end);
    AmbiguousIffMeets(hits, current, column, start, end);
    match AbsentChecked(hits, current)
    case None => None
    case Some(added) =>
      AppendedOnce(hits, current, column, start, end);
      AbsentDistinct(hits, current);
      assert (current + added)[|current|..] == added;
      assert forall i :: |current| <= i < |current + added| ==> (current + added)[i] in added;
      Some(current + added)
  }

  /** Lines 99-111: a tuple pick on an attribute already in the store. The
      scan of the comprehension raises `ValueError` with nothing changed
      when it meets a stored interval. Otherwise the in-range values the
      entry lacks are appended, each once, and the entry is re-sorted; a
      failed sort raises after the append, `ValueError` for numpy numbers
      next to intervals and `TypeError` when a text is involved. */
  function TuplePickOnStored(s: Store, attr: string, start: int, end: int, column: seq<int>): (r: Step)
    requires s.Valid() && attr in s.entries
    ensures r.store.Valid() && OnlyTouches(s, r.store, attr) && attr in r.store.entries
    ensures r.raised == Some(AmbiguousTruth) <==> ScanMeetsInterval(s.entries[attr], column, start, end)
    ensures r.raised == Some(AmbiguousTruth) ==> r.store == s
    ensures r.raised != Some(AmbiguousTruth) ==>
      && (forall x :: multiset(r.store.entries[attr])[x] == multiset(s.entries[attr])[x] +
            (if InRange(x, column, start, end) && x !in s.entries[attr] then 1 else 0))
      && (forall x :: x in r.store.entries[attr] <==> x in s.entries[attr] || InRange(x, column, start, end))
      && (r.raised.None? ==> Sorted(r.store.entries[attr]) && Orderable(r.store.entries[attr]))
      && (r.raised.Some? ==>
            && (r.raised == Some(Unorderable) || r.raised == Some(AmbiguousOrder))
            && s.entries[attr] <= r.store.entries[attr] && !Orderable(r.store.entries[attr]))
      && (r.raised == Some(AmbiguousOrder) <==> r.raised.Some? && !HoldsText(r.store.entries[attr]))
      && (r.raised == Some(AmbiguousOrder) ==> HoldsNumberAndInterval(r.store.entries[attr]))
  {
    match Extended(s.entries[attr], column, start, end)
    case None => Step(s, Some(AmbiguousTruth))
    case Some(merged) =>
      match PySorted(merged)
      case Some(sorted) =>
        SortedKeepsMembers(merged, sorted);
        OrderableByMultiset(merged, sorted);
        Step(Put(s, attr, sorted), None)
      case None =>
        if HoldsText(merged) then Step(Put(s, attr, merged), Some(Unorderable))
        else
          UnorderableWithoutText(merged);
          Step(Put(s, attr, merged), Some(AmbiguousOrder))
  }

  /** numeric add_selection. A list pick appends the closed interval (or
      stores `[[start, end]]` for a new attribute). A tuple pick stores the
      sorted in-range column values for a new attribute. For an existing
      one, the comprehension of lines 102-108 first collects the in-range
      values not yet present; when that scan meets a stored interval it
      raises `ValueError` and nothing changes. Otherwise the collected
      values are appended, each once, and the list is re-sorted; when the
      stored list mixes kinds `sorted` raises after the append has already
      happened: `ValueError` when the list holds numbers and intervals but
      no text, since the numbers this picker stores are numpy values, and
      `TypeError` when a text is involved. No other key changes. */
  function NumericAdd(s: Store, attr: string, picked: Picked, column: seq<int>): (r: Step)
    requires s.Valid()
    ensures r.store.Valid() && OnlyTouches(s, r.store, attr) && attr in r.store.entries
    ensures picked.ListRange? ==>
      && r.raised.None?
      && r.store.entries[attr] ==
         (if attr in s.entries then s.entries[attr] else []) + [Span(picked.start, picked.end)]
    ensures picked.TupleRange? && attr !in s.entries ==>
      && r.raised.None?
      && Sorted(r.store.entries[attr]) && Distinct(r.store.entries[attr])
      && forall x :: x in r.store.entries[attr] <==> InRange(x, column, picked.start, picked.end)
    ensures picked.TupleRange? && attr in s.entries ==>
      && (r.raised == Some(AmbiguousTruth) <==> ScanMeetsInterval(s.entries[attr], column, picked.start, picked.end))
      && (r.raised == Some(AmbiguousTruth) ==> r.store == s)
    ensures picked.TupleRange? && attr in s.entries && r.raised != Some(AmbiguousTruth) ==>
      && (forall x :: multiset(r.store.entries[attr])[x] == multiset(s.entries[attr])[x] +
            (if InRange(x, column, picked.start, picked.end) && x !in s.entries[attr] then 1 else 0))
      && (forall x :: x in r.store.entries[attr] <==>
            x in s.entries[attr] || InRange(x, column, picked.start, picked.end))
      && (r.raised.None? ==> Sorted(r.store.entries[attr]))
      && (r.raised.Some? ==>
            && (r.raised == Some(Unorderable) || r.raised == Some(AmbiguousOrder))
            && s.entries[attr] <= r.store.entries[attr] && !Orderable(r.store.entries[attr]))
      && (r.raised == Some(AmbiguousOrder) <==> r.raised.Some? && !HoldsText(r.store.entries[attr]))
      && (r.raised == Some(AmbiguousOrder) ==> HoldsNumberAndInterval(r.store.entries[attr]))
  {
    match picked
    case ListRange(start, end) =>
      var current := if attr in s.entries then s.entries[attr] else [];
      Step(Put(s, attr, current + [Span(start, end)]), None)
    case TupleRange(start, end) =>
      if attr in s.entries then TuplePickOnStored(s, attr, start, end, column)
      else
        Step(Put(s, attr, SortedHits(column, start, end)), None)
  }

  /** Some entry of the list is a text. */
  predicate HoldsText(xs: seq<Item>) {
    exists i :: 0 <= i < |xs| && xs[i].Point? && xs[i].v.Text?
  }

  /** The list holds a number and an interval, the pair whose comparison
      gives a numpy boolean array. */
  ghost predicate HoldsNumberAndInterval(xs: seq<Item>) {
    exists i, j :: 0 <= i < |xs| && 0 <= j < |xs| && xs[i].Point? && xs[i].v.Num? && xs[j].Span?
  }

  /** A list `sorted` cannot order and that holds no text mixes numbers
      with intervals. */
  lemma UnorderableWithoutText(xs: seq<Item>)
    requires !Orderable(xs) && !HoldsText(xs)
    ensures HoldsNumberAndInterval(xs)
  {
    var i, j :| 0 <= i < |xs| && 0 <= j < |xs| && !SameKind(xs[i], xs[j]);
    if xs[i].Span? {
      assert xs[j].Point? && xs[j].v.Num?;
    } else {
      assert xs[i].v.Num? && xs[j].Span?;
    }
  }

  /** A stored number followed by a stored interval, then a tuple pick
      whose only in-range value is that number: the scan finds the number
      before the interval, nothing is appended, and `sorted` raises
      `ValueError` on the unchanged list. */
  lemma NumberBeforeIntervalRaisesOnSort(s: Store, attr: string, x: int, lo: int, hi: int, start: int, end: int)
    requires s.Valid() && attr in s.entries && s.entries[attr] == [Point(Num(x)), Span(lo, hi)]
    requires start <= x <= end
    ensures NumericAdd(s, attr, TupleRange(start, end), [x]) == Step(s, Some(AmbiguousOrder))
  {
    var current := s.entries[attr];
    FoundBeforeInterval(x, lo, hi, start, end);
    NumberNextToIntervalUnsortable(x, lo, hi);
    assert NumericAdd(s, attr, TupleRange(start, end), [x]) == TuplePickOnStored(s, attr, start, end, [x]);
    assert s.entries[attr := current] == s.entries;
  }

  /** The scan for the column's only value `x` finds it before the
      interval, so nothing is appended. */
  lemma FoundBeforeInterval(x: int, lo: int, hi: int, start: int, end: int)
    requires start <= x <= end
    ensures Extended([Point(Num(x)), Span(lo, hi)], [x], start, end) == Some([Point(Num(x)), Span(lo, hi)])
  {
    var current := [Point(Num(x)), Span(lo, hi)];
    assert Unique([x]) == [x];
    var hits := RangeHits([x], start, end);
    assert [x][1..] == [] && RangeHits([], start, end) == [];
    assert hits == [Point(Num(x))];
    assert ScanIn(hits[0], current) == Some(true);
    assert hits[1..] == [];
    assert AbsentChecked(hits, current) == Some([]);
    assert current + [] == current;
  }

  /** A number next to an interval cannot be sorted, and no text is
      involved. */
  lemma NumberNextToIntervalUnsortable(x: int, lo: int, hi: int)
    ensures PySorted([Point(Num(x)), Span(lo, hi)]).None?
    ensures !HoldsText([Point(Num(x)), Span(lo, hi)])
  {
    var current := [Point(Num(x)), Span(lo, hi)];
    assert !SameKind(current[0], current[1]);
  }


  /** Some hit's scan raises exactly when the scan meets an interval for
      some in-range value. */
  lemma AmbiguousIffMeets(hits: seq<Item>, current: seq<Item>, column: seq<int>, start: int, end: int)
    requires hits == RangeHits(Unique(column), start, end)
    ensures (exists i :: 0 <= i < |hits| && ScanIn(hits[i], current).None?) <==>
      ScanMeetsInterval(current, column, start, end)
  {
    if exists i :: 0 <= i < |hits| && ScanIn(hits[i], current).None? {
      var i :| 0 <= i < |hits| && ScanIn(hits[i], current).None?;
      assert hits[i] in hits;
      var j :| 0 <= j < |current| && current[j].Span? && hits[i] !in current[..j];
      assert InRange(hits[i], column, start, end);
    }
    if ScanMeetsInterval(current, column, start, end) {
      var x, j :| InRange(x, column, start, end) && 0 <= j < |current| && current[j].Span? && x !in current[..j];
      assert x in hits;
      var i :| 0 <= i < |hits| && hits[i] == x;
      assert ScanIn(hits[i], current).None?;
    }
  }

  /** The appended values are the in-range values the entry lacks, each
      once. */
  lemma AppendedOnce(hits: seq<Item>, current: seq<Item>, column: seq<int>, start: int, end: int)
    requires hits == RangeHits(Unique(column), start, end)
    ensures forall x :: (multiset(current + Absent(hits, current))[x] == multiset(current)[x] +
      (if InRange(x, column, start, end) && x !in current then 1 else 0))
  {
    var added := Absent(hits, current);
    AbsentDistinct(hits, current);
    forall x ensures multiset(current + added)[x] == multiset(current)[x] +
      (if InRange(x, column, start, end) && x !in current then 1 else 0)
    {
      DistinctCount(added, x);
    }
  }

  /** `[item for item in hits if item not in values]`. */
  function Absent(hits: seq<Item>, values: seq<Item>): (r: seq<Item>)
    ensures forall x :: x in r <==> x in hits && x !in values
    decreases |hits|
  {
    if |hits| == 0 then []
    else
      var rest := Absent(hits[1..], values);
      assert forall x :: x in hits <==> x == hits[0] || x in hits[1..];
      if hits[0] in values then rest else [hits[0]] + rest
  }

  /** Distinct hits leave distinct absent values, in their order. */
  lemma {:induction false} AbsentDistinct(hits: seq<Item>, values: seq<Item>)
    requires Distinct(hits)
    ensures Distinct(Absent(hits, values)) && IsSubseq(Absent(hits, values), hits)
    decreases |hits|
  {
    if |hits| > 0 {
      var rest := Absent(hits[1..], values);
      assert Distinct(hits[1..]);
      AbsentDistinct(hits[1..], values);
      assert hits[0] !in hits[1..];
      if hits[0] in values {
        SubseqOfCons(rest, hits[1..], hits[0]);
        assert hits == [hits[0]] + hits[1..];
      } else {
        assert ([hits[0]] + rest)[1..] == rest;
      }
    }
  }

  lemma {:induction false} AbsentOfPresent(hits: seq<Item>, values: seq<Item>)
    requires forall i :: 0 <= i < |hits| ==> hits[i] in values
    ensures Absent(hits, values) == []
    decreases |hits|
  {
    if |hits| > 0 {
      AbsentOfPresent(hits[1..], values);
    }
  }

  /** Both ends of a tuple pick are included: unless the pick raised
      `ValueError`, a column value equal to `start` or to `end` is stored. */
  lemma NumericAddInclusive(s: Store, attr: string, start: int, end: int, column: seq<int>)
    requires s.Valid() && start <= end
    ensures var r := NumericAdd(s, attr, TupleRange(start, end), column);
      r.raised != Some(AmbiguousTruth) ==>
        && (start in column ==> Point(Num(start)) in r.store.entries[attr])
        && (end in column ==> Point(Num(end)) in r.store.entries[attr])
  {
    assert InRange(Point(Num(start)), column, start, end) <==> start in column;
    assert InRange(Point(Num(end)), column, start, end) <==> end in column;
  }

  lemma {:induction false} OrderableByMultiset(xs: seq<Item>, ys: seq<Item>)
    requires Orderable(xs) && multiset(xs) == multiset(ys)
    ensures Orderable(ys)
  {
    forall i, j | 0 <= i < |ys| && 0 <= j < |ys| ensures SameKind(ys[i], ys[j]) {
      assert ys[i] in multiset(xs) && ys[j] in multiset(xs);
      var a :| 0 <= a < |xs| && xs[a] == ys[i];
      var b :| 0 <= b < |xs| && xs[b] == ys[j];
    }
  }

  /** After a tuple pick that did not raise `ValueError`, the entry holds
      every in-range value and, unless sorting raised, is an orderable
      sorted list. */
  lemma TuplePickSettles(s: Store, attr: string, start: int, end: int, column: seq<int>)
    requires s.Valid()
    ensures var once := NumericAdd(s, attr, TupleRange(start, end), column);
      && (once.raised != Some(AmbiguousTruth) ==>
            Absent(RangeHits(Unique(column), start, end), once.store.entries[attr]) == [])
      && (once.raised.None? ==> Orderable(once.store.entries[attr]) && Sorted(once.store.entries[attr]))
      && ((once.raised == Some(Unorderable) || once.raised == Some(AmbiguousOrder)) ==>
            !Orderable(once.store.entries[attr]))
  {
    var once := NumericAdd(s, attr, TupleRange(start, end), column);
    var current := once.store.entries[attr];
    var hits := RangeHits(Unique(column), start, end);
    if once.raised != Some(AmbiguousTruth) {
      assert forall i :: 0 <= i < |hits| ==> hits[i] in current by {
        forall i | 0 <= i < |hits| ensures hits[i] in current {
          assert hits[i] in hits;
          assert InRange(hits[i], column, start, end);
        }
      }
      AbsentOfPresent(hits, current);
      if attr !in s.entries {
        HitsOrderable(hits);
        OrderableByMultiset(hits, current);
      }
    }
  }

  /** When the scan meets no interval, neither does the scan of the
      extended list, nor of that list sorted: the appended values are
      numbers, and a sortable list that holds an interval holds nothing
      but intervals. */
  lemma QuietAfterExtend(current: seq<Item>, column: seq<int>, start: int, end: int)
    requires !ScanMeetsInterval(current, column, start, end)
    ensures var merged := Extended(current, column, start, end).value;
      && !ScanMeetsInterval(merged, column, start, end)
      && (Orderable(merged) ==> !ScanMeetsInterval(Sort(merged), column, start, end))
  {
    var merged := Extended(current, column, start, end).value;
    forall x, j | InRange(x, column, start, end) && 0 <= j < |merged| && merged[j].Span?
      ensures x in merged[..j]
    {
      assert j < |current|;
      assert current[j] == merged[j];
      assert x in current[..j];
      assert merged[..j] == current[..j];
    }
    if Orderable(merged) {
      SortedQuiet(merged, column, start, end);
    }
  }

  /** A sortable list holding every in-range value holds numbers only when
      there is any in-range value at all, so its sorted scan meets no
      interval. */
  lemma SortedQuiet(merged: seq<Item>, column: seq<int>, start: int, end: int)
    requires Orderable(merged)
    requires forall x :: InRange(x, column, start, end) ==> x in merged
    ensures !ScanMeetsInterval(Sort(merged), column, start, end)
  {
    var sorted := Sort(merged);
    forall x | InRange(x, column, start, end) ensures forall j :: 0 <= j < |sorted| ==> !sorted[j].Span? {
      var b :| 0 <= b < |merged| && merged[b] == x;
      forall j | 0 <= j < |sorted| ensures !sorted[j].Span? {
        assert sorted[j] in multiset(merged);
        var a :| 0 <= a < |merged| && merged[a] == sorted[j];
        assert SameKind(merged[a], merged[b]);
      }
    }
  }

  /** A tuple pick that did not raise `ValueError` leaves a list whose
      scan for the same range meets no interval. */
  lemma RepeatPickScansQuietly(s: Store, attr: string, start: int, end: int, column: seq<int>)
    requires s.Valid()
    ensures var once := NumericAdd(s, attr, TupleRange(start, end), column);
      once.raised != Some(AmbiguousTruth) ==> !ScanMeetsInterval(once.store.entries[attr], column, start, end)
  {
    if attr in s.entries {
      var current := s.entries[attr];
      if !ScanMeetsInterval(current, column, start, end) {
        QuietAfterExtend(current, column, start, end);
      }
    } else {
      var entry := SortedHits(column, start, end);
      forall j | 0 <= j < |entry| ensures !entry[j].Span? {
        assert entry[j] in entry;
      }
    }
  }

  /** A tuple pick on an entry that already holds every in-range value,
      whose scan meets no interval and which is sorted if it can be, leaves
      the store as it is. */
  lemma TuplePickOnSettled(t: Store, attr: string, start: int, end: int, column: seq<int>)
    requires t.Valid() && attr in t.entries
    requires !ScanMeetsInterval(t.entries[attr], column, start, end)
    requires forall x :: InRange(x, column, start, end) ==> x in t.entries[attr]
    requires Orderable(t.entries[attr]) ==> Sorted(t.entries[attr])
    ensures NumericAdd(t, attr, TupleRange(start, end), column).store == t
  {
    var entry := t.entries[attr];
    var ext := Extended(entry, column, start, end).value;
    assert multiset(ext) == multiset(entry) by {
      forall x ensures multiset(ext)[x] == multiset(entry)[x] {
        assert InRange(x, column, start, end) ==> x in entry;
      }
    }
    assert |ext| == |entry| by {
      assert |multiset(ext)| == |multiset(entry)|;
    }
    assert ext == entry;
    if Orderable(entry) {
      SortedPermutationUnique(Sort(entry), entry);
    }
    assert t.entries[attr := entry] == t.entries;
  }

  /** A repeated tuple pick is a no-op: everything it would add is already
      there, the scan meets no interval, and the list is already sorted (or
      fails to sort again). A pick that raised `ValueError` changed nothing
      and raises again. */
  lemma NumericAddIdempotent(s: Store, attr: string, start: int, end: int, column: seq<int>)
    requires s.Valid()
    ensures var once := NumericAdd(s, attr, TupleRange(start, end), column).store;
      NumericAdd(once, attr, TupleRange(start, end), column).store == once
  {
    var once := NumericAdd(s, attr, TupleRange(start, end), column);
    if once.raised != Some(AmbiguousTruth) {
      TuplePickSettles(s, attr, start, end, column);
      RepeatPickScansQuietly(s, attr, start, end, column);
      TuplePickOnSettled(once.store, attr, start, end, column);
    }
  }

  // ---------------------------------------------------------------------
  // categorical_selections
  // ---------------------------------------------------------------------

  /** With an empty search the option list is the column's distinct
      values, sorted, and exists exactly when they can be compared. */
  lemma UnsearchedOptions(column: seq<Value>)
    ensures OptionList("", column).Some? <==> Orderable(Points(Unique(column)))
    ensures OptionList("", column).Some? ==>
      forall x :: x in OptionList("", column).value <==> x.Point? && x.v in column
  {
  }

  /** categorical select_all: the entry becomes the column's distinct
      values, sorted. A column mixing numbers and texts makes `sorted`
      raise, and the store is left alone. */
  function CategoricalSelectAll(s: Store, attr: string, column: seq<Value>): (r: Step)
    requires s.Valid()
    ensures r.store.Valid() && OnlyTouches(s, r.store, attr)
    ensures r.raised.Some? <==> !Orderable(Points(Unique(column)))
    ensures r.raised.Some? ==> r == Step(s, Some(Unorderable))
    ensures r.raised.None? ==>
      && attr in r.store.entries
      && Sorted(r.store.entries[attr]) && Distinct(r.store.entries[attr])
      && forall x :: x in r.store.entries[attr] <==> x.Point? && x.v in column
  {
    var r := OptionList("", column);
    UnsearchedOptions(column);
    match r
    case None => Step(s, Some(Unorderable))
    case Some(options) => Step(Put(s, attr, options), None)
  }

  /** categorical add_selection as written: nothing chosen is a no-op, a
      new attribute stores the choice, and an existing attribute reaches
      `extend()` with no argument, which raises before anything changes. */
  function CategoricalAdd(s: Store, attr: string, chosen: seq<Value>): (r: Step)
    requires s.Valid()
    ensures r.store.Valid() && OnlyTouches(s, r.store, attr)
    ensures |chosen| == 0 ==> r == Step(s, None)
    ensures |chosen| > 0 && attr in s.entries ==> r == Step(s, Some(ExtendWithoutArgument))
    ensures |chosen| > 0 && attr !in s.entries ==>
      r.raised.None? && attr in r.store.entries && r.store.entries[attr] == Points(chosen)
  {
    if |chosen| == 0 then Step(s, None)
    else if attr in s.entries then Step(s, Some(ExtendWithoutArgument))
    else Step(Put(s, attr, Points(chosen)), None)
  }

  /** Where it does not raise, the categorical add is the add of the
      search picker; that add, with `extend(changes)`, is what the
      existing-attribute branch evidently meant. */
  lemma CategoricalAddAgrees(s: Store, attr: string, chosen: seq<Value>)
    requires s.Valid()
    requires CategoricalAdd(s, attr, chosen).raised.None?
    ensures CategoricalAdd(s, attr, chosen).store == AddSelection(s, attr, chosen)
  {
  }

  /** The discrepancy on a concrete store: adding "F" to a selection that
      already holds "M" raises instead of storing both. */
  lemma CategoricalAddRaisesOnExisting()
    ensures var s := Put(Empty(), "SEX", [Point(Text("M"))]);
      && CategoricalAdd(s, "SEX", [Text("F")]).raised == Some(ExtendWithoutArgument)
      && AddSelection(s, "SEX", [Text("F")]).entries["SEX"] == [Point(Text("M")), Point(Text("F"))]
  {
    var s := Put(Empty(), "SEX", [Point(Text("M"))]);
    assert Fresh([Text("F")], [Point(Text("M"))]) == [Point(Text("F"))];
  }

  // ---------------------------------------------------------------------
  // delete_selections
  // ---------------------------------------------------------------------

  /** The loop of delete: pop each chosen attribute in turn; looking up
      one that is no longer there raises `KeyError`, keeping the pops
      already made. It gets through iff the chosen attributes are present
      and none is chosen twice, and it never alters an entry it keeps. */
  function DeleteEach(s: Store, chosen: seq<string>): (r: Step)
    requires s.Valid()
    ensures r.store.Valid()
    ensures r.raised.None? <==> Distinct(chosen) && forall i :: 0 <= i < |chosen| ==> chosen[i] in s.entries
    ensures forall k :: k in r.store.entries ==> k in s.entries && r.store.entries[k] == s.entries[k]
    decreases |chosen|
  {
    if |chosen| == 0 then Step(s, None)
    else if chosen[0] !in s.entries then Step(s, Some(MissingKey(chosen[0])))
    else
      var rest := Remove(s, chosen[0]);
      var r := DeleteEach(rest, chosen[1..]);
      PresentAfterPop(s, chosen, rest);
      r
  }

  /** After popping `chosen[0]`, the remaining choice is distinct and
      present in the smaller store exactly when the whole choice was
      distinct and present in the store. */
  lemma PresentAfterPop(s: Store, chosen: seq<string>, rest: Store)
    requires s.Valid() && |chosen| > 0 && chosen[0] in s.entries
    requires rest == Remove(s, chosen[0])
    ensures Distinct(chosen) <==> chosen[0] !in chosen[1..] && Distinct(chosen[1..])
    ensures (Distinct(chosen[1..]) && forall i :: 0 <= i < |chosen[1..]| ==> chosen[1..][i] in rest.entries) <==>
      Distinct(chosen) && forall i :: 0 <= i < |chosen| ==> chosen[i] in s.entries
    ensures forall k :: k in rest.entries ==> k in s.entries && rest.entries[k] == s.entries[k]
  {
    assert forall k :: k in chosen[1..] <==> exists i :: 1 <= i < |chosen| && chosen[i] == k;
    assert Distinct(chosen) <==> chosen[0] !in chosen[1..] && Distinct(chosen[1..]);
  }

  /** On success the loop of delete has removed the chosen attributes and
      no other. */
  lemma {:induction false} DeleteEachRemovesChosen(s: Store, chosen: seq<string>)
    requires s.Valid()
    requires DeleteEach(s, chosen).raised.None?
    ensures forall k :: k in DeleteEach(s, chosen).store.entries <==> k in s.entries && k !in chosen
    decreases |chosen|
  {
    if |chosen| > 0 {
      var rest := Remove(s, chosen[0]);
      DeleteEachRemovesChosen(rest, chosen[1..]);
      assert forall k :: k in chosen <==> k == chosen[0] || k in chosen[1..];
    }
  }

  /** When the loop of delete raises, the `KeyError` names a chosen
      attribute and exactly the attributes chosen before it are gone. */
  lemma {:induction false} DeleteEachStopsAtMissing(s: Store, chosen: seq<string>)
    requires s.Valid()
    requires DeleteEach(s, chosen).raised.Some?
    ensures var r := DeleteEach(s, chosen);
      StoppedAt(chosen, s.entries, r.store.entries, r.raised)
    decreases |chosen|
  {
    var r := DeleteEach(s, chosen);
    if chosen[0] !in s.entries {
      assert chosen[..0] == [];
      assert r.raised == Some(MissingKey(chosen[0]));
      assert forall k :: k in r.store.entries <==> k in s.entries && k !in chosen[..0];
    } else {
      var rest := Remove(s, chosen[0]);
      assert r == DeleteEach(rest, chosen[1..]);
      DeleteEachStopsAtMissing(rest, chosen[1..]);
      StopsAfterPop(s.entries, chosen, rest.entries, r.store.entries, r.raised);
    }
  }

  /** The loop stopped with `KeyError` at some chosen key `chosen[i]`, and
      the keys left are those of `before` except the `i` keys popped before
      it. */
  ghost predicate StoppedAt<V>(chosen: seq<string>, before: map<string, V>, after: map<string, V>, raised: Option<Error>) {
    exists i :: (0 <= i < |chosen| && raised == Some(MissingKey(chosen[i]))
      && (forall k :: k in after <==> k in before && k !in chosen[..i]))
  }

  /** Stopping at the `i`-th key after popping `chosen[0]` is stopping at
      key `i + 1` with the first `i + 1` keys popped. */
  lemma StopsAfterPop<V>(before: map<string, V>, chosen: seq<string>, popped: map<string, V>,
                         after: map<string, V>, raised: Option<Error>)
    requires |chosen| > 0 && popped == before - {chosen[0]}
    requires StoppedAt(chosen[1..], popped, after, raised)
    ensures StoppedAt(chosen, before, after, raised)
  {
    var i :| 0 <= i < |chosen[1..]| && raised == Some(MissingKey(chosen[1..][i]))
      && (forall k :: k in after <==> k in popped && k !in chosen[1..][..i]);
    assert chosen[..i + 1] == [chosen[0]] + chosen[1..][..i];
    assert chosen[1..][i] == chosen[i + 1];
  }

  /** delete: nothing chosen changes nothing; otherwise exactly the chosen
      attributes are removed and every other entry is kept as it was. */
  function Delete(s: Store, chosen: seq<string>): (r: Step)
    requires s.Valid()
    ensures r.store.Valid()
    ensures |chosen| == 0 ==> r == Step(s, None)
    ensures r.raised.None? ==>
      && (forall k :: k in r.store.entries <==> k in s.entries && k !in chosen)
      && (forall k :: k in r.store.entries ==> r.store.entries[k] == s.entries[k])
    ensures r.raised.None? <==> Distinct(chosen) && forall i :: 0 <= i < |chosen| ==> chosen[i] in s.entries
  {
    if |chosen| == 0 then Step(s, None)
    else
      var r := DeleteEach(s, chosen);
      if r.raised.None? then DeleteEachRemovesChosen(s, chosen); r else r
  }
}

=== FILE: describe.dfy ===
/** The summaries of describe_data.py (`count_table`). For every pair of
    selected attributes it builds a cross-tabulation of the filtered rows,
    with row and column totals and "NaN" markers for selected values that
    never occur. For a single attribute it builds a tally of its values. */
module Describe {
  import opened Values
  import opened Outcomes
  import opened Frames
  import opened Selections
  import opened Counting
  import opened FilterData

  /** A row or column label: a group key, or the added "Total". */
  datatype Label = Key(v: Value) | Total

  /** A cell: a count, or the "NaN" text of a marker. */
  datatype Cell = Count(n: nat) | NA

  datatype Table = Table(index: seq<Label>, columns: seq<Label>, cells: map<(Label, Label), Cell>) {
    /** There is a cell for every (row, column) position, and for no other
        position. */
    ghost predicate Shaped() {
      forall k :: k in cells <==> k.0 in index && k.1 in columns
    }
  }

  // ---------------------------------------------------------------------
  // Labels
  // ---------------------------------------------------------------------

  /** Group keys as labels. */
  function Keys(vs: seq<Value>): (r: seq<Label>)
    ensures |r| == |vs|
    ensures forall l :: l in r <==> l.Key? && l.v in vs
    ensures Distinct(vs) ==> Distinct(r)
    decreases |vs|
  {
    if |vs| == 0 then []
    else
      var rest := Keys(vs[1..]);
      assert forall v :: v in vs <==> v == vs[0] || v in vs[1..];
      assert Distinct(vs) ==> vs[0] !in vs[1..] && Distinct(vs[1..]);
      [Key(vs[0])] + rest
  }

  /** The values of a list of single-value entries. */
  function Unwrap(xs: seq<Item>): (r: seq<Value>)
    requires forall i :: 0 <= i < |xs| ==> xs[i].Point?
    ensures |r| == |xs|
    ensures forall i :: 0 <= i < |xs| ==> xs[i] == Point(r[i])
  {
    seq(|xs|, i requires 0 <= i < |xs| => xs[i].v)
  }

  /** The keys `groupby` forms on one column: each value of the column
      once, in ascending order (numbers before texts). */
  function GroupKeys(column: seq<Value>): (r: seq<Value>)
    ensures Distinct(r)
    ensures forall v :: v in r <==> v in column
    ensures forall i, j :: 0 <= i < j < |r| ==> ValueLe(r[i], r[j])
  {
    var u := Unique(column);
    var ps := Sort(Points(u));
    SortPoints(u);
    assert forall i :: 0 <= i < |ps| ==> ps[i].Point? by {
      forall i | 0 <= i < |ps| ensures ps[i].Point? {
        assert ps[i] in ps;
      }
    }
    var r := Unwrap(ps);
    assert forall v :: v in r <==> v in column by {
      forall v ensures v in r <==> v in column {
        if v in r {
          var i :| 0 <= i < |r| && r[i] == v;
          assert ps[i] == Point(v);
        }
        if Point(v) in ps {
          var i :| 0 <= i < |ps| && ps[i] == Point(v);
          assert r[i] == v;
        }
      }
    }
    r
  }

  // ---------------------------------------------------------------------
  // The pair table before the markers (lines 15-20)
  // ---------------------------------------------------------------------

  /** Every (row, column) position of the given labels. */
  function Grid(index: seq<Label>, columns: seq<Label>): (g: set<(Label, Label)>)
    ensures forall k :: k in g <==> k.0 in index && k.1 in columns
  {
    set r, c | r in index && c in columns :: (r, c)
  }

  /** `count_table.values.sum()` on line 18, taken once the Total column
      and the Total row are in place: the counts, plus the Total column of
      the value rows, plus the whole Total row, whose Total-column cell is
      itself the sum of the Total column. */
  function CornerAsWritten(rows: seq<Row>, A: string, avs: seq<Value>, B: string, bvs: seq<Value>): nat {
    var counts := GridSum(rows, A, avs, B, bvs);
    var totalColumn := GridSum(rows, A, avs, B, bvs);
    var totalRow := ColumnSums(rows, A, avs, B, bvs) + GridSum(rows, A, avs, B, bvs);
    counts + totalColumn + totalRow
  }

  /** The cell the pair table holds before the markers, given the corner. */
  function PairCell(rows: seq<Row>, A: string, avs: seq<Value>, B: string, bvs: seq<Value>,
                    corner: nat, k: (Label, Label)): Cell
  {
    match k
    case (Key(a), Key(b)) => Count(PairCount(rows, A, a, B, b))
    case (Key(a), Total) => Count(RowSum(rows, A, a, B, bvs))
    case (Total, Key(b)) => Count(ColumnSum(rows, A, avs, B, b))
    case (Total, Total) => Count(corner)
  }

  /** The pair table of lines 15-18 over the given group keys, with the
      given corner cell: one row per key of `A`, one column per key of
      `B`, each cell the number of rows with that combination (0 when
      none), then a Total column and a Total row. */
  function PairTableWith(rows: seq<Row>, A: string, avs: seq<Value>, B: string, bvs: seq<Value>,
                         corner: nat): (t: Table)
    ensures t.Shaped()
    ensures t.index == Keys(avs) + [Total] && t.columns == Keys(bvs) + [Total]
    ensures forall k :: k in t.cells ==> t.cells[k] == PairCell(rows, A, avs, B, bvs, corner, k)
  {
    var index := Keys(avs) + [Total];
    var columns := Keys(bvs) + [Total];
    Table(index, columns, map k | k in Grid(index, columns) :: PairCell(rows, A, avs, B, bvs, corner, k))
  }

  /** The table as lines 15-18 build it, with the corner of line 18. */
  function PairTableAsWritten(f: Frame, A: string, B: string): (t: Table)
    requires f.Valid() && A in f.columns && B in f.columns
  {
    var avs := GroupKeys(Column(f, A));
    var bvs := GroupKeys(Column(f, B));
    PairTableWith(f.rows, A, avs, B, bvs, CornerAsWritten(f.rows, A, avs, B, bvs))
  }

  /** The table with the corner a grand total is meant to hold: the sum of
      the counts. */
  function PairTable(f: Frame, A: string, B: string): (t: Table)
    requires f.Valid() && A in f.columns && B in f.columns
  {
    var avs := GroupKeys(Column(f, A));
    var bvs := GroupKeys(Column(f, B));
    PairTableWith(f.rows, A, avs, B, bvs, GridSum(f.rows, A, avs, B, bvs))
  }

  /** Every row's cell in column `c` is one of the column's group keys. */
  lemma CoversByGroupKeys(f: Frame, c: string)
    requires f.Valid() && c in f.columns
    ensures Covers(f.rows, c, GroupKeys(Column(f, c)))
  {
    var col := Column(f, c);
    forall i | 0 <= i < |f.rows| ensures c in f.rows[i] && f.rows[i][c] in GroupKeys(col) {
      assert col[i] == f.rows[i][c];
    }
  }

  lemma CornerAsWrittenValue(rows: seq<Row>, A: string, avs: seq<Value>, B: string, bvs: seq<Value>)
    requires Distinct(avs) && Covers(rows, A, avs)
    requires Distinct(bvs) && Covers(rows, B, bvs)
    ensures CornerAsWritten(rows, A, avs, B, bvs) == 4 * |rows|
  {
    GridSumIsTotal(rows, A, avs, B, bvs);
    SumCountsIsTotal(rows, A, avs);
    ColumnSumsIsTotal(rows, A, avs, B, bvs);
    SumCountsIsTotal(rows, B, bvs);
  }

  /** The pair table's labels: the group keys once each, then Total. */
  lemma PairTableLabels(rows: seq<Row>, A: string, avs: seq<Value>, B: string, bvs: seq<Value>, corner: nat)
    requires Distinct(avs) && Distinct(bvs)
    ensures var t := PairTableWith(rows, A, avs, B, bvs, corner);
      && Distinct(t.index) && Distinct(t.columns)
      && (forall l :: l in t.index <==> l == Total || (l.Key? && l.v in avs))
      && (forall l :: l in t.columns <==> l == Total || (l.Key? && l.v in bvs))
  {
    assert Total !in Keys(avs) && Total !in Keys(bvs);
  }

  /** The pair table's cells, for any group keys that are distinct and
      cover every row. */
  lemma PairTableCells(rows: seq<Row>, A: string, avs: seq<Value>, B: string, bvs: seq<Value>, corner: nat)
    requires Distinct(avs) && Covers(rows, A, avs)
    requires Distinct(bvs) && Covers(rows, B, bvs)
    ensures var t := PairTableWith(rows, A, avs, B, bvs, corner);
      && (forall a, b :: a in avs && b in bvs ==>
            (Key(a), Key(b)) in t.cells && t.cells[(Key(a), Key(b))] == Count(PairCount(rows, A, a, B, b)))
      && (forall a :: a in avs ==>
            (Key(a), Total) in t.cells && t.cells[(Key(a), Total)] == Count(CountEq(rows, A, a)))
      && (forall b :: b in bvs ==>
            (Total, Key(b)) in t.cells && t.cells[(Total, Key(b))] == Count(CountEq(rows, B, b)))
      && (Total, Total) in t.cells && t.cells[(Total, Total)] == Count(corner)
  {
    var t := PairTableWith(rows, A, avs, B, bvs, corner);
    forall a | a in avs ensures (Key(a), Total) in t.cells && t.cells[(Key(a), Total)] == Count(CountEq(rows, A, a)) {
      assert Key(a) in t.index;
      RowSumIsCount(rows, A, a, B, bvs);
    }
    forall b | b in bvs ensures (Total, Key(b)) in t.cells && t.cells[(Total, Key(b))] == Count(CountEq(rows, B, b)) {
      assert Key(b) in t.columns;
      ColumnSumIsCount(rows, A, avs, B, b);
    }
    forall a, b | a in avs && b in bvs
      ensures (Key(a), Key(b)) in t.cells && t.cells[(Key(a), Key(b))] == Count(PairCount(rows, A, a, B, b))
    {
      assert Key(a) in t.index && Key(b) in t.columns;
    }
  }

  /** The corner of line 18 counts every row four times: the counts, the
      Total column and the Total row each sum to the number of rows, and
      the Total row's own Total cell repeats that sum once more. */
  lemma CornerIsFourTimesRows(f: Frame, A: string, B: string)
    requires f.Valid() && A in f.columns && B in f.columns
    ensures var t := PairTableAsWritten(f, A, B);
      (Total, Total) in t.cells && t.cells[(Total, Total)] == Count(4 * |f.rows|)
  {
    var avs := GroupKeys(Column(f, A));
    var bvs := GroupKeys(Column(f, B));
    CoversByGroupKeys(f, A);
    CoversByGroupKeys(f, B);
    CornerAsWrittenValue(f.rows, A, avs, B, bvs);
    PairTableCells(f.rows, A, avs, B, bvs, CornerAsWritten(f.rows, A, avs, B, bvs));
  }

  /** Which corner cell a pair table carries: the one line 18 computes, or
      the grand total it is meant to be. */
  datatype Corner = AsWritten | GrandTotal

  /** The pair table with the chosen corner. */
  function BaseTable(f: Frame, A: string, B: string, corner: Corner): (t: Table)
    requires f.Valid() && A in f.columns && B in f.columns
  {
    match corner
    case AsWritten => PairTableAsWritten(f, A, B)
    case GrandTotal => PairTable(f, A, B)
  }

  /** The pair table over the frame's group keys, whatever its corner. */
  lemma {:induction false} PairTableBody(f: Frame, A: string, B: string, n: nat)
    requires f.Valid() && A in f.columns && B in f.columns
    ensures var t := PairTableWith(f.rows, A, GroupKeys(Column(f, A)), B, GroupKeys(Column(f, B)), n);
      && t.Shaped() && Distinct(t.index) && Distinct(t.columns)
      && (forall l :: l in t.index <==> l == Total || (l.Key? && l.v in Column(f, A)))
      && (forall l :: l in t.columns <==> l == Total || (l.Key? && l.v in Column(f, B)))
      && (forall a, b :: Key(a) in t.index && Key(b) in t.columns ==>
            (Key(a), Key(b)) in t.cells && t.cells[(Key(a), Key(b))] == Count(|Keep(f.rows, HasBoth(A, a, B, b))|))
      && (forall a :: Key(a) in t.index ==>
            (Key(a), Total) in t.cells && t.cells[(Key(a), Total)] == Count(CountEq(f.rows, A, a)))
      && (forall b :: Key(b) in t.columns ==>
            (Total, Key(b)) in t.cells && t.cells[(Total, Key(b))] == Count(CountEq(f.rows, B, b)))
      && (Total, Total) in t.cells && t.cells[(Total, Total)] == Count(n)
  {
    var avs := GroupKeys(Column(f, A));
    var bvs := GroupKeys(Column(f, B));
    CoversByGroupKeys(f, A);
    CoversByGroupKeys(f, B);
    PairTableLabels(f.rows, A, avs, B, bvs, n);
    PairTableCells(f.rows, A, avs, B, bvs, n);
  }

  /** The table's labels are the observed values of each attribute, once
      each, followed by Total. Each count cell is the number of rows with
      that combination. The Total column holds how many rows have the row's
      value, and the Total row how many have the column's value. The corner
      holds four times the number of rows as written, and the number of
      rows as intended. */
  lemma PairTableCounts(f: Frame, A: string, B: string, corner: Corner)
    requires f.Valid() && A in f.columns && B in f.columns
    ensures var t := BaseTable(f, A, B, corner);
      && t.Shaped() && Distinct(t.index) && Distinct(t.columns)
      && (forall l :: l in t.index <==> l == Total || (l.Key? && l.v in Column(f, A)))
      && (forall l :: l in t.columns <==> l == Total || (l.Key? && l.v in Column(f, B)))
      && (forall a, b :: Key(a) in t.index && Key(b) in t.columns ==>
            (Key(a), Key(b)) in t.cells && t.cells[(Key(a), Key(b))] == Count(|Keep(f.rows, HasBoth(A, a, B, b))|))
      && (forall a :: Key(a) in t.index ==>
            (Key(a), Total) in t.cells && t.cells[(Key(a), Total)] == Count(CountEq(f.rows, A, a)))
      && (forall b :: Key(b) in t.columns ==>
            (Total, Key(b)) in t.cells && t.cells[(Total, Key(b))] == Count(CountEq(f.rows, B, b)))
      && (Total, Total) in t.cells
      && (corner == AsWritten ==> t.cells[(Total, Total)] == Count(4 * |f.rows|))
      && (corner == GrandTotal ==> t.cells[(Total, Total)] == Count(|f.rows|))
  {
    var avs := GroupKeys(Column(f, A));
    var bvs := GroupKeys(Column(f, B));
    CoversByGroupKeys(f, A);
    CoversByGroupKeys(f, B);
    if corner == AsWritten {
      CornerAsWrittenValue(f.rows, A, avs, B, bvs);
      PairTableBody(f, A, B, CornerAsWritten(f.rows, A, avs, B, bvs));
    } else {
      GridSumIsTotal(f.rows, A, avs, B, bvs);
      SumCountsIsTotal(f.rows, A, avs);
      PairTableBody(f, A, B, GridSum(f.rows, A, avs, B, bvs));
    }
  }

  // ---------------------------------------------------------------------
  // "NaN" markers for selected values that were not observed (lines 22-39)
  // ---------------------------------------------------------------------

  /** The values one stored entry stands for: `range(start, end + 1)` for
      an interval, the value itself otherwise. */
  function Expand(x: Item): (r: seq<Value>)
    ensures x.Point? ==> r == [x.v]
    ensures x.Span? ==> forall v :: v in r <==> v.Num? && x.lo <= v.n <= x.hi
  {
    match x
    case Point(v) => [v]
    case Span(lo, hi) =>
      var r := seq(if hi < lo then 0 else hi - lo + 1, i => Num(lo + i));
      assert forall n :: lo <= n <= hi ==> r[n - lo] == Num(n);
      r
  }

  /** The values of all of one attribute's entries, in order. */
  function ExpandAll(items: seq<Item>): (r: seq<Value>)
    ensures forall v :: v in r <==> exists i :: 0 <= i < |items| && v in Expand(items[i])
    decreases |items|
  {
    if |items| == 0 then []
    else
      var rest := ExpandAll(items[1..]);
      ExpandStep(items, rest);
      Expand(items[0]) + rest
  }

  /** The first entry's values followed by the later entries' values are
      the values of some entry. */
  lemma ExpandStep(items: seq<Item>, rest: seq<Value>)
    requires |items| > 0
    requires forall v :: v in rest <==> exists i :: 0 <= i < |items[1..]| && v in Expand(items[1..][i])
    ensures forall v :: v in Expand(items[0]) + rest <==> exists i :: 0 <= i < |items| && v in Expand(items[i])
  {
    forall v ensures v in Expand(items[0]) + rest <==> exists i :: 0 <= i < |items| && v in Expand(items[i]) {
      if v in rest {
        var i :| 0 <= i < |items[1..]| && v in Expand(items[1..][i]);
        assert v in Expand(items[i + 1]);
      }
      if exists i :: 0 <= i < |items| && v in Expand(items[i]) {
        var i :| 0 <= i < |items| && v in Expand(items[i]);
        if i > 0 {
          assert v in Expand(items[1..][i - 1]);
        }
      }
    }
  }

  /** `v` is one of the values stored for `A` or `B`. */
  ghost predicate Selected(entries: map<string, seq<Item>>, A: string, B: string, v: Value) {
    exists k :: k in entries && (k == A || k == B) && v in ExpandAll(entries[k])
  }

  /** The values the marker loop visits, walking the attributes in `keys`
      and skipping those not in the pair. */
  function MarkedFrom(keys: seq<string>, entries: map<string, seq<Item>>, A: string, B: string): (r: seq<Value>)
    requires forall i :: 0 <= i < |keys| ==> keys[i] in entries
    ensures forall v :: v in r <==>
      exists i :: 0 <= i < |keys| && (keys[i] == A || keys[i] == B) && v in ExpandAll(entries[keys[i]])
    decreases |keys|
  {
    if |keys| == 0 then []
    else
      var rest := MarkedFrom(keys[1..], entries, A, B);
      var head := if keys[0] == A || keys[0] == B then ExpandAll(entries[keys[0]]) else [];
      MarkedStep(keys, entries, A, B, head, rest);
      head + rest
  }

  /** The first key's values followed by the later keys' values are the
      values of some pair attribute among all the keys. */
  lemma MarkedStep(keys: seq<string>, entries: map<string, seq<Item>>, A: string, B: string,
                   head: seq<Value>, rest: seq<Value>)
    requires |keys| > 0 && forall i :: 0 <= i < |keys| ==> keys[i] in entries
    requires head == if keys[0] == A || keys[0] == B then ExpandAll(entries[keys[0]]) else []
    requires forall v :: v in rest <==>
      exists i :: 0 <= i < |keys[1..]| && (keys[1..][i] == A || keys[1..][i] == B) && v in ExpandAll(entries[keys[1..][i]])
    ensures forall v :: v in head + rest <==>
      exists i :: 0 <= i < |keys| && (keys[i] == A || keys[i] == B) && v in ExpandAll(entries[keys[i]])
  {
    forall v ensures v in head + rest <==>
      exists i :: 0 <= i < |keys| && (keys[i] == A || keys[i] == B) && v in ExpandAll(entries[keys[i]])
    {
      if v in rest {
        var i :| 0 <= i < |keys[1..]| && (keys[1..][i] == A || keys[1..][i] == B) && v in ExpandAll(entries[keys[1..][i]]);
        assert keys[i + 1] == keys[1..][i];
      }
      if exists i :: 0 <= i < |keys| && (keys[i] == A || keys[i] == B) && v in ExpandAll(entries[keys[i]]) {
        var i :| 0 <= i < |keys| && (keys[i] == A || keys[i] == B) && v in ExpandAll(entries[keys[i]]);
        if i > 0 {
          assert keys[1..][i - 1] == keys[i];
        }
      }
    }
  }

  /** The values the marker loop of `create_count_table` visits: those of
      the pair's attributes, in the store's order. */
  function MarkedValues(s: Store, A: string, B: string): (r: seq<Value>)
    requires s.Valid()
    ensures forall v :: v in r <==> Selected(s.entries, A, B, v)
  {
    var r := MarkedFrom(s.order, s.entries, A, B);
    assert forall v :: v in r <==> Selected(s.entries, A, B, v) by {
      forall v ensures v in r <==> Selected(s.entries, A, B, v) {
        if Selected(s.entries, A, B, v) {
          var k :| k in s.entries && (k == A || k == B) && v in ExpandAll(s.entries[k]);
          var i :| 0 <= i < |s.order| && s.order[i] == k;
        }
      }
    }
    r
  }

  /** `count_table.loc[value] = "NaN"` when the value is not a row label:
      a new last row of markers. */
  function MarkRow(t: Table, l: Label): (r: Table)
    requires t.Shaped()
    ensures r.Shaped() && r.columns == t.columns && l in r.index
    ensures l in t.index ==> r == t
    ensures l !in t.index ==> r.index == t.index + [l]
    ensures forall k :: k in t.cells ==> k in r.cells && r.cells[k] == t.cells[k]
    ensures forall k :: k in r.cells && k !in t.cells ==> r.cells[k] == NA
  {
    if l in t.index then t
    else
      var row := map k | k in Grid([l], t.columns) :: NA;
      Table(t.index + [l], t.columns, t.cells + row)
  }

  /** `count_table[value] = "NaN"` when the value is not a column label:
      a new last column of markers, down every row including Total. */
  function MarkColumn(t: Table, l: Label): (r: Table)
    requires t.Shaped()
    ensures r.Shaped() && r.index == t.index && l in r.columns
    ensures l in t.columns ==> r == t
    ensures l !in t.columns ==> r.columns == t.columns + [l]
    ensures forall k :: k in t.cells ==> k in r.cells && r.cells[k] == t.cells[k]
    ensures forall k :: k in r.cells && k !in t.cells ==> r.cells[k] == NA
  {
    if l in t.columns then t
    else
      var column := map k | k in Grid(t.index, [l]) :: NA;
      Table(t.index, t.columns + [l], t.cells + column)
  }

  /** One pass of the marker loop (lines 30-33 or 36-39): the value gets a
      row label and a column label if it had none. */
  function Mark(t: Table, v: Value): (r: Table)
    requires t.Shaped()
    ensures r.Shaped()
    ensures t.index <= r.index && t.columns <= r.columns
    ensures Distinct(t.index) ==> Distinct(r.index)
    ensures Distinct(t.columns) ==> Distinct(r.columns)
    ensures Key(v) in r.index && Key(v) in r.columns
    ensures r.index == if Key(v) in t.index then t.index else t.index + [Key(v)]
    ensures r.columns == if Key(v) in t.columns then t.columns else t.columns + [Key(v)]
    ensures forall l :: l in r.index ==> l in t.index || l == Key(v)
    ensures forall l :: l in r.columns ==> l in t.columns || l == Key(v)
    ensures forall k :: k in t.cells ==> k in r.cells && r.cells[k] == t.cells[k]
    ensures forall k :: k in r.cells && k !in t.cells ==> r.cells[k] == NA
  {
    MarkColumn(MarkRow(t, Key(v)), Key(v))
  }

  /** The marker loop over the given values: the existing labels stay a
      prefix, the existing cells keep their contents and every new cell is
      a marker. */
  function AddMarkers(t: Table, vs: seq<Value>): (r: Table)
    requires t.Shaped()
    ensures r.Shaped()
    ensures t.index <= r.index && t.columns <= r.columns
    ensures forall k :: k in t.cells ==> k in r.cells && r.cells[k] == t.cells[k]
    ensures forall k :: k in r.cells && k !in t.cells ==> r.cells[k] == NA
    decreases |vs|
  {
    if |vs| == 0 then t else AddMarkers(Mark(t, vs[0]), vs[1..])
  }

  /** After the marker loop every value is a row label and a column label,
      no other label has been added, no label appears twice, and the new
      labels follow the order of the values. */
  lemma {:induction false} AddMarkersLabels(t: Table, vs: seq<Value>)
    requires t.Shaped()
    ensures IsSubseq(AddMarkers(t, vs).index[|t.index|..], Keys(vs))
    ensures IsSubseq(AddMarkers(t, vs).columns[|t.columns|..], Keys(vs))
    ensures Distinct(t.index) ==> Distinct(AddMarkers(t, vs).index)
    ensures Distinct(t.columns) ==> Distinct(AddMarkers(t, vs).columns)
    ensures forall v :: v in vs ==> Key(v) in AddMarkers(t, vs).index && Key(v) in AddMarkers(t, vs).columns
    ensures forall l :: l in AddMarkers(t, vs).index ==> l in t.index || (l.Key? && l.v in vs)
    ensures forall l :: l in AddMarkers(t, vs).columns ==> l in t.columns || (l.Key? && l.v in vs)
    decreases |vs|
  {
    if |vs| > 0 {
      var marked := Mark(t, vs[0]);
      AddMarkersLabels(marked, vs[1..]);
      assert forall v :: v in vs ==> v == vs[0] || v in vs[1..];
      assert Key(vs[0]) in marked.index && Key(vs[0]) in marked.columns;
      var r := AddMarkers(t, vs);
      assert Keys(vs) == [Key(vs[0])] + Keys(vs[1..]);
      NewLabelsInOrder(t.index, marked.index, r.index, Key(vs[0]), Keys(vs[1..]));
      NewLabelsInOrder(t.columns, marked.columns, r.columns, Key(vs[0]), Keys(vs[1..]));
    } else {
      assert AddMarkers(t, vs).index[|t.index|..] == [];
      assert AddMarkers(t, vs).columns[|t.columns|..] == [];
    }
  }

  /** One pass of the marker loop adds the label `l` or nothing, so the
      labels it adds after the old ones follow `l` and then `later`. */
  lemma NewLabelsInOrder(before: seq<Label>, marked: seq<Label>, r: seq<Label>, l: Label, later: seq<Label>)
    requires marked <= r
    requires marked == if l in before then before else before + [l]
    requires IsSubseq(r[|marked|..], later)
    ensures IsSubseq(r[|before|..], [l] + later)
  {
    var added := r[|before|..];
    if l in before {
      assert added == r[|marked|..];
      SubseqOfCons(added, later, l);
    } else {
      assert marked[|before|] == l;
      assert |added| > 0 && added[0] == ([l] + later)[0];
      assert added[1..] == r[|marked|..] && ([l] + later)[1..] == later;
    }
  }


  /** `create_count_table`: the pair table with a marker row and column for
      every selected value of the pair's attributes that the rows do not
      show. The corner is the chosen one. */
  function CreateCountTable(f: Frame, s: Store, A: string, B: string, corner: Corner): (t: Table)
    requires f.Valid() && s.Valid() && A in f.columns && B in f.columns
    ensures t.Shaped() && Distinct(t.index) && Distinct(t.columns)
    ensures BaseTable(f, A, B, corner).index <= t.index && BaseTable(f, A, B, corner).columns <= t.columns
    ensures forall v :: Selected(s.entries, A, B, v) ==> Key(v) in t.index && Key(v) in t.columns
    ensures IsSubseq(t.index[|BaseTable(f, A, B, corner).index|..], Keys(MarkedValues(s, A, B)))
    ensures IsSubseq(t.columns[|BaseTable(f, A, B, corner).columns|..], Keys(MarkedValues(s, A, B)))
    ensures forall l :: l in t.index <==>
      l == Total || (l.Key? && (l.v in Column(f, A) || Selected(s.entries, A, B, l.v)))
    ensures forall l :: l in t.columns <==>
      l == Total || (l.Key? && (l.v in Column(f, B) || Selected(s.entries, A, B, l.v)))
    ensures forall k :: k in BaseTable(f, A, B, corner).cells ==> k in t.cells && t.cells[k] == BaseTable(f, A, B, corner).cells[k]
    ensures forall k :: k in t.cells && k !in BaseTable(f, A, B, corner).cells ==> t.cells[k] == NA
    ensures (Total, Total) in t.cells
    ensures corner == AsWritten ==> t.cells[(Total, Total)] == Count(4 * |f.rows|)
    ensures corner == GrandTotal ==> t.cells[(Total, Total)] == Count(|f.rows|)
  {
    var base := BaseTable(f, A, B, corner);
    PairTableCounts(f, A, B, corner);
    AddMarkersLabels(base, MarkedValues(s, A, B));
    AddMarkers(base, MarkedValues(s, A, B))
  }

  /** Without selected values for the pair's attributes the table is the
      plain pair table. */
  lemma NoMarkersWithoutSelection(f: Frame, s: Store, A: string, B: string, corner: Corner)
    requires f.Valid() && s.Valid() && A in f.columns && B in f.columns
    requires forall k :: k in s.entries && (k == A || k == B) ==> |s.entries[k]| == 0
    ensures CreateCountTable(f, s, A, B, corner) == BaseTable(f, A, B, corner)
  {
    NothingMarkedFrom(s.order, s.entries, A, B);
  }

  lemma {:induction false} NothingMarkedFrom(keys: seq<string>, entries: map<string, seq<Item>>, A: string, B: string)
    requires forall i :: 0 <= i < |keys| ==> keys[i] in entries
    requires forall k :: k in entries && (k == A || k == B) ==> |entries[k]| == 0
    ensures MarkedFrom(keys, entries, A, B) == []
    decreases |keys|
  {
    if |keys| > 0 {
      NothingMarkedFrom(keys[1..], entries, A, B);
    }
  }

  /** A count table position holds a count exactly when each of its labels
      is Total or a value the rows show; a position that only a selected
      value created holds "NaN". */
  lemma CountTableCells(f: Frame, s: Store, A: string, B: string, corner: Corner, r: Label, c: Label)
    requires f.Valid() && s.Valid() && A in f.columns && B in f.columns
    requires r == Total || (r.Key? && (r.v in Column(f, A) || Selected(s.entries, A, B, r.v)))
    requires c == Total || (c.Key? && (c.v in Column(f, B) || Selected(s.entries, A, B, c.v)))
    ensures var t := CreateCountTable(f, s, A, B, corner);
      && (r, c) in t.cells
      && (t.cells[(r, c)].Count? <==>
            (r == Total || r.v in Column(f, A)) && (c == Total || c.v in Column(f, B)))
  {
    var base := BaseTable(f, A, B, corner);
    PairTableCounts(f, A, B, corner);
    var t := CreateCountTable(f, s, A, B, corner);
    if r in base.index && c in base.columns {
      var a := r;
      var b := c;
      assert (r, c) in base.cells;
      if r == Total || c == Total {
      } else {
        assert base.cells[(r, c)] == Count(|Keep(f.rows, HasBoth(A, r.v, B, c.v))|);
      }
    }
  }

  // ---------------------------------------------------------------------
  // One selected attribute: the value tally (lines 54-63)
  // ---------------------------------------------------------------------

  /** `value_counts()` of one column, and the stored entries it did not
      show, appended with count "NaN" in the order they are stored. The
      row order of `value_counts` (by decreasing count) is not kept. */
  datatype Tally = Tally(attribute: string, counts: map<Value, nat>, unobserved: seq<Item>)

  /** The entries appended after the counts: an entry is skipped when its
      value was counted or it was already appended; the rest follow in
      their stored order. */
  function Unobserved(items: seq<Item>, counted: set<Value>, acc: seq<Item>): (r: seq<Item>)
    ensures acc <= r
    ensures forall x :: x in r <==> x in acc || (x in items && !(x.Point? && x.v in counted))
    ensures Distinct(acc) ==> Distinct(r)
    ensures IsSubseq(r[|acc|..], items)
    decreases |items|
  {
    if |items| == 0 then
      assert acc[|acc|..] == [];
      acc
    else
      var x := items[0];
      var next := if (x.Point? && x.v in counted) || x in acc then acc else acc + [x];
      assert forall y :: y in items <==> y == x || y in items[1..];
      var r := Unobserved(items[1..], counted, next);
      assert items == [x] + items[1..];
      if next == acc then
        SubseqOfCons(r[|acc|..], items[1..], x);
        r
      else
        assert r[|acc|..][0] == x && r[|acc|..][1..] == r[|next|..];
        r
  }

  /** The single-attribute branch for attribute `A` with stored entries
      `items`. */
  function ValueCounts(f: Frame, A: string, items: seq<Item>): (r: Tally)
    requires f.Valid() && A in f.columns
    ensures r.attribute == A
    ensures forall v :: v in r.counts <==> v in Column(f, A)
    ensures forall v :: v in r.counts ==> r.counts[v] == CountEq(f.rows, A, v) && r.counts[v] > 0
    ensures forall x :: x in r.unobserved <==> x in items && !(x.Point? && x.v in r.counts)
    ensures Distinct(r.unobserved) && IsSubseq(r.unobserved, items)
  {
    var column := Column(f, A);
    var counts := map v | v in column :: CountEq(f.rows, A, v);
    forall v | v in counts ensures counts[v] > 0 {
      var i :| 0 <= i < |column| && column[i] == v;
      KeepMembers(f.rows, Has(A, v));
      assert f.rows[i] in Keep(f.rows, Has(A, v));
    }
    var unobserved := Unobserved(items, counts.Keys, []);
    assert unobserved[0..] == unobserved;
    Tally(A, counts, unobserved)
  }

  // ---------------------------------------------------------------------
  // count_table (lines 10-70)
  // ---------------------------------------------------------------------

  /** Where the index pair `(i, j)`, `i < j < n`, comes when all such
      pairs are listed in lexicographic order. */
  function PairIndex(n: nat, i: nat, j: nat): nat
    requires i < j < n
    decreases i
  {
    if i == 0 then j - 1 else (n - 1) + PairIndex(n - 1, i - 1, j - 1)
  }

  /** Lexicographically later index pairs come later. */
  lemma {:induction false} PairIndexOrdered(n: nat, i: nat, j: nat, i': nat, j': nat)
    requires i < j < n && i' < j' < n
    requires i < i' || (i == i' && j < j')
    ensures PairIndex(n, i, j) < PairIndex(n, i', j')
    decreases i
  {
    if i > 0 {
      PairIndexOrdered(n - 1, i - 1, j - 1, i' - 1, j' - 1);
    }
  }

  /** `itertools.combinations(keys, 2)`: every pair of keys in key order,
      the first key's pairs first. The pair of positions `(i, j)` sits at
      `PairIndex(|keys|, i, j)`, so the pairs come in lexicographic order
      of their positions. */
  function Combinations(keys: seq<string>): (r: seq<(string, string)>)
    ensures 2 * |r| == |keys| * (|keys| - 1)
    ensures forall p :: p in r <==> exists i, j :: 0 <= i < j < |keys| && p == (keys[i], keys[j])
    ensures forall i, j :: 0 <= i < j < |keys| ==>
      PairIndex(|keys|, i, j) < |r| && r[PairIndex(|keys|, i, j)] == (keys[i], keys[j])
    decreases |keys|
  {
    if |keys| <= 1 then []
    else
      var n := |keys|;
      var first := seq(n - 1, j requires 0 <= j < n - 1 => (keys[0], keys[j + 1]));
      var rest := Combinations(keys[1..]);
      CombinationsCount(n, |first|, |rest|);
      CombinationsMembers(keys, first, rest);
      CombinationsPositions(keys, first, rest);
      first + rest
  }

  /** `n - 1` pairs with the first key and `(n - 1)(n - 2) / 2` without it
      make `n(n - 1) / 2`. */
  lemma CombinationsCount(n: nat, a: nat, b: nat)
    requires n > 1 && a == n - 1 && 2 * b == (n - 1) * (n - 2)
    ensures 2 * (a + b) == n * (n - 1)
  {
    assert n * (n - 1) == (n - 1) * (n - 2) + 2 * (n - 1);
  }

  /** The first key's pairs followed by the pairs of the later keys are
      the pairs of positions `i < j`. */
  lemma CombinationsMembers(keys: seq<string>, first: seq<(string, string)>, rest: seq<(string, string)>)
    requires |keys| > 1 && |first| == |keys| - 1
    requires forall j :: 0 <= j < |first| ==> first[j] == (keys[0], keys[j + 1])
    requires forall p :: p in rest <==> exists i, j :: 0 <= i < j < |keys[1..]| && p == (keys[1..][i], keys[1..][j])
    ensures forall p :: p in first + rest <==> exists i, j :: 0 <= i < j < |keys| && p == (keys[i], keys[j])
  {
    var n := |keys|;
    forall p ensures p in first + rest <==> exists i, j :: 0 <= i < j < n && p == (keys[i], keys[j]) {
      if p in first {
        var j :| 0 <= j < n - 1 && first[j] == p;
        assert p == (keys[0], keys[j + 1]);
      }
      if p in rest {
        var i, j :| 0 <= i < j < n - 1 && p == (keys[1..][i], keys[1..][j]);
        assert p == (keys[i + 1], keys[j + 1]);
      }
      if exists i, j :: 0 <= i < j < n && p == (keys[i], keys[j]) {
        var i, j :| 0 <= i < j < n && p == (keys[i], keys[j]);
        if i == 0 {
          assert first[j - 1] == p;
        } else {
          assert p == (keys[1..][i - 1], keys[1..][j - 1]);
        }
      }
    }
  }

  /** The pair of positions `(i, j)` sits at `PairIndex(|keys|, i, j)`:
      the first key's pairs fill the first `|keys| - 1` places. */
  lemma CombinationsPositions(keys: seq<string>, first: seq<(string, string)>, rest: seq<(string, string)>)
    requires |keys| > 1 && |first| == |keys| - 1
    requires forall j :: 0 <= j < |first| ==> first[j] == (keys[0], keys[j + 1])
    requires forall i, j :: 0 <= i < j < |keys[1..]| ==>
      PairIndex(|keys[1..]|, i, j) < |rest| && rest[PairIndex(|keys[1..]|, i, j)] == (keys[1..][i], keys[1..][j])
    ensures forall i, j :: 0 <= i < j < |keys| ==>
      PairIndex(|keys|, i, j) < |first + rest| && (first + rest)[PairIndex(|keys|, i, j)] == (keys[i], keys[j])
  {
    var n := |keys|;
    var m := |keys[1..]|;
    assert m == n - 1;
    forall i, j | 0 <= i < j < n
      ensures PairIndex(n, i, j) < |first + rest| && (first + rest)[PairIndex(n, i, j)] == (keys[i], keys[j])
    {
      if i > 0 {
        assert PairIndex(m, i - 1, j - 1) < |rest| &&
          rest[PairIndex(m, i - 1, j - 1)] == (keys[1..][i - 1], keys[1..][j - 1]);
        assert PairIndex(n, i, j) == (n - 1) + PairIndex(m, i - 1, j - 1);
      }
    }
  }

  /** What `count_table` shows. */
  datatype Report = PairTables(pairs: seq<(string, string)>, tables: seq<Table>)
                  | SingleTally(tally: Tally)
                  | NothingSelected

  /** count_table over the filtered rows: a table per pair of selected
      attributes when there are two or more, the tally when there is one,
      "Nothing selected" when there are none. A selected attribute that is
      not a column raises `KeyError` for the first such attribute in the
      store's order. Every pair table carries the chosen corner. */
  function CountTables(f: Frame, s: Store, corner: Corner): (r: Result<Report>)
    requires f.Valid() && s.Valid()
    ensures r.Failure? <==> |s.order| > 0 && !(s.entries.Keys <= f.columns)
    ensures r.Failure? ==>
      FirstAbsent(f.columns, s.order) < |s.order| && r.error == MissingColumn(s.order[FirstAbsent(f.columns, s.order)])
    ensures |s.order| == 0 ==> r == Success(NothingSelected)
    ensures |s.order| == 1 && r.Success? ==>
      && r.value.SingleTally? && r.value.tally.attribute == s.order[0]
      && r.value.tally == ValueCounts(f, s.order[0], s.entries[s.order[0]])
    ensures |s.order| > 1 && r.Success? ==>
      && r.value.PairTables?
      && r.value.pairs == Combinations(s.order)
      && 2 * |r.value.tables| == |s.order| * (|s.order| - 1)
      && forall i :: 0 <= i < |r.value.tables| ==>
           var (A, B) := r.value.pairs[i];
           A in f.columns && B in f.columns && A != B && r.value.tables[i] == CreateCountTable(f, s, A, B, corner)
  {
    var k := FirstAbsent(f.columns, s.order);
    if |s.order| == 0 then Success(NothingSelected)
    else if k < |s.order| then
      assert s.order[k] in s.entries;
      Failure(MissingColumn(s.order[k]))
    else
      assert s.entries.Keys <= f.columns by {
        forall a | a in s.entries ensures a in f.columns {
          var i :| 0 <= i < |s.order| && s.order[i] == a;
        }
      }
      if |s.order| == 1 then
        Success(SingleTally(ValueCounts(f, s.order[0], s.entries[s.order[0]])))
      else
        var pairs := Combinations(s.order);
        assert forall i :: 0 <= i < |pairs| ==> pairs[i].0 in f.columns && pairs[i].1 in f.columns && pairs[i].0 != pairs[i].1 by {
          forall i | 0 <= i < |pairs| ensures pairs[i].0 in f.columns && pairs[i].1 in f.columns && pairs[i].0 != pairs[i].1 {
            assert pairs[i] in pairs;
            var x, y :| 0 <= x < y < |s.order| && pairs[i] == (s.order[x], s.order[y]);
          }
        }
        Success(PairTables(pairs, seq(|pairs|, i requires 0 <= i < |pairs| => CreateCountTable(f, s, pairs[i].0, pairs[i].1, corner))))
  }
}

=== FILE: filter_data.dfy ===
/** The row filters of filter_data.py. */
module FilterData {
  import opened Values
  import opened Outcomes
  import opened Frames
  import opened Selections

  // ---------------------------------------------------------------------
  // filter_subset / and_filter_subset
  // ---------------------------------------------------------------------

  /** The test one `(column, value)` pair asks of a row: membership when
      the value is a list or tuple, equality otherwise. */
  datatype Cond = OneOf(vs: seq<Value>) | Equals(v: Value)

  /** A filter list, as dictionary items or as a list of pairs. */
  type Conds = seq<(string, Cond)>

  predicate Matches(row: Row, column: string, c: Cond) {
    column in row &&
    match c
    case OneOf(vs) => row[column] in vs
    case Equals(v) => row[column] == v
  }

  function Test(column: string, c: Cond): Row -> bool {
    row => Matches(row, column, c)
  }

  /** Every pair holds of the row. */
  function AllOf(conds: Conds): Row -> bool {
    row => forall i :: 0 <= i < |conds| ==> Matches(row, conds[i].0, conds[i].1)
  }

  /** At least one pair holds of the row. */
  function AnyOf(conds: Conds): Row -> bool {
    row => exists i :: 0 <= i < |conds| && Matches(row, conds[i].0, conds[i].1)
  }

  /** The position of the first pair naming a column the frame lacks, or
      `|conds|` when there is none: `df[column]` raises there. */
  function FirstMissing(columns: set<string>, conds: Conds): (k: nat)
    ensures k <= |conds|
    ensures forall j :: 0 <= j < k ==> conds[j].0 in columns
    ensures k < |conds| ==> conds[k].0 !in columns
    decreases |conds|
  {
    if |conds| == 0 then 0
    else if conds[0].0 !in columns then 0
    else 1 + FirstMissing(columns, conds[1..])
  }

  /** The loop of `filter_subset`: narrow the frame one pair at a time. */
  function NarrowEach(f: Frame, conds: Conds): (r: Result<Frame>)
    requires f.Valid()
    ensures r.Success? <==> FirstMissing(f.columns, conds) == |conds|
    ensures r.Failure? ==> r.error == MissingColumn(conds[FirstMissing(f.columns, conds)].0)
    ensures r.Success? ==> r.value.columns == f.columns && r.value.Valid()
    ensures r.Success? ==> r.value.rows == Keep(f.rows, AllOf(conds))
    decreases |conds|
  {
    if |conds| == 0 then
      KeepAll(f.rows, AllOf(conds));
      Success(f)
    else
      var (column, c) := conds[0];
      if column !in f.columns then Failure(MissingColumn(column))
      else
        var narrowed := Frame(f.columns, Keep(f.rows, Test(column, c)));
        KeepMembers(f.rows, Test(column, c));
        assert narrowed.Valid() by {
          forall i | 0 <= i < |narrowed.rows| ensures narrowed.rows[i].Keys == f.columns {
            assert narrowed.rows[i] in f.rows;
          }
        }
        var r := NarrowEach(narrowed, conds[1..]);
        if r.Success? then
          KeepKeep(f.rows, Test(column, c), AllOf(conds[1..]), AllOf(conds));
          r
        else r
  }

  /** filter_subset: `None` is refused; otherwise a row survives iff every
      pair holds of it, and survivors keep their order. */
  function FilterSubset(subset: Option<Frame>, conds: Conds): (r: Result<Frame>)
    requires subset.Some? ==> subset.value.Valid()
    ensures subset.None? ==> r == Failure(NoneFrame)
    ensures subset.Some? ==>
      (r.Success? <==> forall i :: 0 <= i < |conds| ==> conds[i].0 in subset.value.columns)
    ensures r.Success? ==>
      && r.value.columns == subset.value.columns
      && r.value.rows == Keep(subset.value.rows, AllOf(conds))
  {
    match subset
    case None => Failure(NoneFrame)
    case Some(f) => NarrowEach(f, conds)
  }

  /** With no pairs, filter_subset hands back its input. */
  lemma FilterSubsetEmpty(f: Frame)
    requires f.Valid()
    ensures FilterSubset(Some(f), []) == Success(f)
  {
    KeepAll(f.rows, AllOf([]));
  }

  /** A row is in the result iff it is in the input and meets every pair;
      the result is an order-preserving subsequence of the input. */
  lemma FilterSubsetKeeps(f: Frame, conds: Conds)
    requires f.Valid()
    requires FilterSubset(Some(f), conds).Success?
    ensures forall row :: row in FilterSubset(Some(f), conds).value.rows <==>
      row in f.rows && forall i :: 0 <= i < |conds| ==> Matches(row, conds[i].0, conds[i].1)
    ensures IsSubseq(FilterSubset(Some(f), conds).value.rows, f.rows)
  {
    KeepMembers(f.rows, AllOf(conds));
    KeepIsSubseq(f.rows, AllOf(conds));
  }

  /** Adding pairs never yields more rows: the longer list keeps a
      subsequence of what the shorter one keeps. */
  lemma FilterSubsetMonotone(f: Frame, conds: Conds, more: Conds)
    requires f.Valid()
    requires FilterSubset(Some(f), conds + more).Success?
    ensures FilterSubset(Some(f), conds).Success?
    ensures IsSubseq(FilterSubset(Some(f), conds + more).value.rows,
                     FilterSubset(Some(f), conds).value.rows)
  {
    assert forall i :: 0 <= i < |conds| ==> conds[i] == (conds + more)[i];
    KeepMonotone(f.rows, AllOf(conds), AllOf(conds + more));
  }

  /** `reduce(lambda x, y: x | y, masks)`: element-wise disjunction, folded
      from the left. */
  function FoldOr(masks: seq<seq<bool>>, n: nat): (r: seq<bool>)
    requires |masks| > 0
    requires forall j :: 0 <= j < |masks| ==> |masks[j]| == n
    ensures |r| == n
    ensures forall i :: 0 <= i < n ==> (r[i] <==> exists j :: 0 <= j < |masks| && masks[j][i])
    decreases |masks|
  {
    if |masks| == 1 then masks[0]
    else
      var left := FoldOr(masks[..|masks| - 1], n);
      var last := masks[|masks| - 1];
      seq(n, i requires 0 <= i < n => left[i] || last[i])
  }

  /** and_filter_subset: despite its name, a row survives iff AT LEAST ONE
      pair holds of it; an empty list hands back the input. */
  function AndFilterSubset(f: Frame, conds: Conds): (r: Result<Frame>)
    requires f.Valid()
    ensures |conds| == 0 ==> r == Success(f)
    ensures |conds| > 0 ==> (r.Success? <==> FirstMissing(f.columns, conds) == |conds|)
    ensures r.Failure? ==> r.error == MissingColumn(conds[FirstMissing(f.columns, conds)].0)
    ensures |conds| > 0 && r.Success? ==>
      r.value.columns == f.columns && r.value.rows == Keep(f.rows, AnyOf(conds))
  {
    if |conds| == 0 then Success(f)
    else
      var k := FirstMissing(f.columns, conds);
      if k < |conds| then Failure(MissingColumn(conds[k].0))
      else
        var masks := seq(|conds|, j requires 0 <= j < |conds| => Mask(f.rows, Test(conds[j].0, conds[j].1)));
        var combined := FoldOr(masks, |f.rows|);
        assert combined == Mask(f.rows, AnyOf(conds)) by {
          forall i | 0 <= i < |f.rows| ensures combined[i] == AnyOf(conds)(f.rows[i]) {
            assert forall j :: 0 <= j < |conds| ==> masks[j][i] == Matches(f.rows[i], conds[j].0, conds[j].1);
          }
        }
        SelectMask(f.rows, AnyOf(conds));
        Success(Frame(f.columns, Select(f.rows, combined)))
  }

  /** A row is in the result of and_filter_subset iff some pair holds. */
  lemma AndFilterSubsetIsDisjunction(f: Frame, conds: Conds)
    requires f.Valid() && |conds| > 0
    requires AndFilterSubset(f, conds).Success?
    ensures forall row :: row in AndFilterSubset(f, conds).value.rows <==>
      row in f.rows && exists i :: 0 <= i < |conds| && Matches(row, conds[i].0, conds[i].1)
  {
    KeepMembers(f.rows, AnyOf(conds));
  }

  // ---------------------------------------------------------------------
  // filter_dataframe
  // ---------------------------------------------------------------------

  /** The test the filter applies for one selected attribute. */
  type AttributeTest = (string, Row) -> bool

  /** `df[attribute].isin(values)`: the cell equals some stored value. A
      stored interval is a list, which equals no cell. */
  function IsIn(entries: map<string, seq<Item>>): AttributeTest {
    (a, row) => a in row && a in entries && Point(row[a]) in entries[a]
  }

  /** Every attribute in `keys` passes `test`. */
  function AllKeys(keys: seq<string>, test: AttributeTest): Row -> bool {
    row => forall i :: 0 <= i < |keys| ==> test(keys[i], row)
  }

  function FirstAbsent(columns: set<string>, keys: seq<string>): (k: nat)
    ensures k <= |keys|
    ensures forall j :: 0 <= j < k ==> keys[j] in columns
    ensures k < |keys| ==> keys[k] !in columns
    decreases |keys|
  {
    if |keys| == 0 then 0
    else if keys[0] !in columns then 0
    else 1 + FirstAbsent(columns, keys[1..])
  }

  /** The loop of filter_dataframe: narrow the frame once per selected
      attribute, in the store's order. */
  function NarrowByKeys(f: Frame, keys: seq<string>, test: AttributeTest): (r: Result<Frame>)
    requires f.Valid()
    ensures r.Success? <==> FirstAbsent(f.columns, keys) == |keys|
    ensures r.Failure? ==> r.error == MissingColumn(keys[FirstAbsent(f.columns, keys)])
    ensures r.Success? ==> r.value.columns == f.columns && r.value.Valid()
    ensures r.Success? ==> r.value.rows == Keep(f.rows, AllKeys(keys, test))
    decreases |keys|
  {
    if |keys| == 0 then
      KeepAll(f.rows, AllKeys(keys, test));
      Success(f)
    else
      var a := keys[0];
      if a !in f.columns then Failure(MissingColumn(a))
      else
        var one: Row -> bool := row => test(a, row);
        var narrowed := Frame(f.columns, Keep(f.rows, one));
        KeepMembers(f.rows, one);
        assert narrowed.Valid() by {
          forall i | 0 <= i < |narrowed.rows| ensures narrowed.rows[i].Keys == f.columns {
            assert narrowed.rows[i] in f.rows;
          }
        }
        var r := NarrowByKeys(narrowed, keys[1..], test);
        if r.Success? then
          KeepKeep(f.rows, one, AllKeys(keys[1..], test), AllKeys(keys, test));
          r
        else r
  }

  /** The row passes `test` for every attribute of the store, whatever the
      order the attributes were added in. */
  function EveryAttribute(sel: Store, test: AttributeTest): Row -> bool {
    row => forall a :: a in sel.entries ==> test(a, row)
  }

  lemma AllKeysOfStore(sel: Store, test: AttributeTest, rows: seq<Row>)
    requires sel.Valid()
    ensures Keep(rows, AllKeys(sel.order, test)) == Keep(rows, EveryAttribute(sel, test))
  {
    forall row ensures AllKeys(sel.order, test)(row) == EveryAttribute(sel, test)(row) {
      if AllKeys(sel.order, test)(row) {
        forall a | a in sel.entries ensures test(a, row) {
          var i :| 0 <= i < |sel.order| && sel.order[i] == a;
        }
      }
    }
    KeepCongruent(rows, AllKeys(sel.order, test), EveryAttribute(sel, test));
  }

  /** filter_dataframe, on its effective branch (the `isin` test for every
      attribute): a row survives iff each selected attribute's cell is one
      of that attribute's stored values. The input frame is not changed;
      with an empty store the result equals the input. */
  function FilterDataframe(f: Frame, sel: Store): (r: Result<Frame>)
    requires f.Valid() && sel.Valid()
    ensures r.Success? <==> sel.entries.Keys <= f.columns
    ensures r.Failure? ==> exists a :: a in sel.entries && a !in f.columns && r.error == MissingColumn(a)
    ensures r.Failure? ==>
      FirstAbsent(f.columns, sel.order) < |sel.order| && r.error == MissingColumn(sel.order[FirstAbsent(f.columns, sel.order)])
    ensures r.Success? ==>
      && r.value.columns == f.columns && r.value.Valid()
      && r.value.rows == Keep(f.rows, EveryAttribute(sel, IsIn(sel.entries)))
  {
    var r := NarrowByKeys(f, sel.order, IsIn(sel.entries));
    if r.Success? then
      AllKeysOfStore(sel, IsIn(sel.entries), f.rows);
      r
    else
      var k := FirstAbsent(f.columns, sel.order);
      assert sel.order[k] in sel.entries;
      r
  }

  lemma FilterDataframeEmpty(f: Frame)
    requires f.Valid()
    ensures FilterDataframe(f, Empty()) == Success(f)
  {
    KeepAll(f.rows, EveryAttribute(Empty(), IsIn(map[])));
  }

  /** A row survives iff every selected attribute's cell was stored as one
      of its values. */
  lemma FilterDataframeKeeps(f: Frame, sel: Store)
    requires f.Valid() && sel.Valid() && sel.entries.Keys <= f.columns
    ensures forall row :: row in FilterDataframe(f, sel).value.rows <==>
      row in f.rows && forall a :: a in sel.entries ==> Point(row[a]) in sel.entries[a]
  {
    KeepMembers(f.rows, EveryAttribute(sel, IsIn(sel.entries)));
  }

  /** Attributes outside the store play no part: two frames that differ
      only in unselected columns build the same boolean mask, so each keeps
      its rows at the same positions, and as many of them. */
  lemma FilterDataframeIgnoresUnselected(f: Frame, g: Frame, sel: Store)
    requires f.Valid() && g.Valid() && sel.Valid()
    requires sel.entries.Keys <= f.columns && sel.entries.Keys <= g.columns
    requires |f.rows| == |g.rows|
    requires forall i, a :: 0 <= i < |f.rows| && a in sel.entries ==> f.rows[i][a] == g.rows[i][a]
    ensures var m := Mask(f.rows, EveryAttribute(sel, IsIn(sel.entries)));
      && m == Mask(g.rows, EveryAttribute(sel, IsIn(sel.entries)))
      && FilterDataframe(f, sel).value.rows == Select(f.rows, m)
      && FilterDataframe(g, sel).value.rows == Select(g.rows, m)
    ensures |FilterDataframe(f, sel).value.rows| == |FilterDataframe(g, sel).value.rows|
  {
    var p := EveryAttribute(sel, IsIn(sel.entries));
    KeepSameShape(f.rows, g.rows, p);
    SelectMask(f.rows, p);
    SelectMask(g.rows, p);
  }

  lemma {:induction false} KeepSameShape(xs: seq<Row>, ys: seq<Row>, p: Row -> bool)
    requires |xs| == |ys|
    requires forall i :: 0 <= i < |xs| ==> p(xs[i]) == p(ys[i])
    ensures |Keep(xs, p)| == |Keep(ys, p)|
    decreases |xs|
  {
    if |xs| > 0 {
      KeepSameShape(xs[1..], ys[1..], p);
    }
  }

  // ---------------------------------------------------------------------
  // The interval branch of filter_dataframe and its guard
  // ---------------------------------------------------------------------

  /** `(df[a] >= start) & (df[a] <= end)` for one stored interval; a text
      cell is outside every interval. */
  predicate InSpan(v: Value, s: Item) {
    s.Span? && v.Num? && s.lo <= v.n <= s.hi
  }

  /** The mask the interval branch builds: start from all-false and OR in
      one interval at a time. */
  function SpanMask(cells: seq<Value>, spans: seq<Item>): (m: seq<bool>)
    ensures |m| == |cells|
    ensures forall i :: 0 <= i < |cells| ==>
      (m[i] <==> exists j :: 0 <= j < |spans| && InSpan(cells[i], spans[j]))
    decreases |spans|
  {
    if |spans| == 0 then seq(|cells|, i => false)
    else
      var before := SpanMask(cells, spans[..|spans| - 1]);
      var s := spans[|spans| - 1];
      seq(|cells|, i requires 0 <= i < |cells| => before[i] || InSpan(cells[i], s))
  }

  predicate AllSpans(items: seq<Item>) {
    forall j :: 0 <= j < |items| ==> items[j].Span?
  }

  /** The test the interval branch would apply: the cell lies in some
      stored closed interval. */
  function InSomeSpan(entries: map<string, seq<Item>>): AttributeTest {
    (a, row) => a in row && a in entries &&
      exists j :: 0 <= j < |entries[a]| && InSpan(row[a], entries[a][j])
  }

  /** The branch evidently meant: intervals for an attribute whose entries
      are all intervals, `isin` otherwise. */
  function Dispatch(entries: map<string, seq<Item>>): AttributeTest {
    (a, row) =>
      if a in entries && AllSpans(entries[a]) then InSomeSpan(entries)(a, row)
      else IsIn(entries)(a, row)
  }

  /** filter_dataframe with the interval branch reachable: an attribute
      whose stored entries are all closed intervals keeps the rows whose
      cell lies in at least one of them, bounds included. */
  function FilterDataframeWithIntervals(f: Frame, sel: Store): (r: Result<Frame>)
    requires f.Valid() && sel.Valid()
    ensures r.Success? <==> sel.entries.Keys <= f.columns
    ensures r.Failure? ==>
      FirstAbsent(f.columns, sel.order) < |sel.order| && r.error == MissingColumn(sel.order[FirstAbsent(f.columns, sel.order)])
    ensures r.Success? ==>
      && r.value.columns == f.columns && r.value.Valid()
      && r.value.rows == Keep(f.rows, EveryAttribute(sel, Dispatch(sel.entries)))
  {
    var r := NarrowByKeys(f, sel.order, Dispatch(sel.entries));
    if r.Success? then
      AllKeysOfStore(sel, Dispatch(sel.entries), f.rows);
      r
    else
      var k := FirstAbsent(f.columns, sel.order);
      assert sel.order[k] in sel.entries;
      r
  }

  /** On selections made only of single values the two filters agree: an
      attribute with no entries keeps no row either way, and one with
      single values goes through `isin` either way. */
  lemma IntervalsAgreeOnPoints(f: Frame, sel: Store)
    requires f.Valid() && sel.Valid()
    requires forall a, i :: a in sel.entries && 0 <= i < |sel.entries[a]| ==> sel.entries[a][i].Point?
    ensures FilterDataframeWithIntervals(f, sel) == FilterDataframe(f, sel)
  {
    var p := EveryAttribute(sel, Dispatch(sel.entries));
    var q := EveryAttribute(sel, IsIn(sel.entries));
    forall i | 0 <= i < |f.rows| ensures p(f.rows[i]) == q(f.rows[i]) {
      var row := f.rows[i];
      forall a | a in sel.entries ensures Dispatch(sel.entries)(a, row) == IsIn(sel.entries)(a, row) {
        if |sel.entries[a]| > 0 {
          assert !sel.entries[a][0].Span?;
        }
      }
    }
    KeepCongruent(f.rows, p, q);
  }

  /** The per-row mask of the interval branch agrees with the test the
      corrected filter applies. */
  lemma SpanMaskIsInSomeSpan(f: Frame, sel: Store, a: string)
    requires f.Valid() && sel.Valid() && a in f.columns && a in sel.entries
    ensures SpanMask(Column(f, a), sel.entries[a]) == Mask(f.rows, row => InSomeSpan(sel.entries)(a, row))
  {
    var cells := Column(f, a);
    forall i | 0 <= i < |f.rows|
      ensures SpanMask(cells, sel.entries[a])[i] == InSomeSpan(sel.entries)(a, f.rows[i])
    {
      assert cells[i] == f.rows[i][a];
    }
  }

  /** Interval bounds are inclusive: with the single interval
      `[lo, hi]` stored for `a`, exactly the rows whose cell is a number in
      `lo..hi` survive. */
  lemma IntervalsInclusive(f: Frame, a: string, lo: int, hi: int)
    requires f.Valid() && a in f.columns
    ensures var sel := Put(Empty(), a, [Span(lo, hi)]);
      forall row: Row :: row in FilterDataframeWithIntervals(f, sel).value.rows <==>
        row in f.rows && row[a].Num? && lo <= row[a].n <= hi
  {
    var sel := Put(Empty(), a, [Span(lo, hi)]);
    var p := EveryAttribute(sel, Dispatch(sel.entries));
    KeepMembers(f.rows, p);
    assert sel.entries == map[a := [Span(lo, hi)]];
    forall row: Row | row in f.rows ensures p(row) <==> row[a].Num? && lo <= row[a].n <= hi {
      var i :| 0 <= i < |f.rows| && f.rows[i] == row;
      assert a in row;
      assert AllSpans(sel.entries[a]);
      assert p(row) <==> Dispatch(sel.entries)(a, row);
      assert Dispatch(sel.entries)(a, row) == InSomeSpan(sel.entries)(a, row);
      assert InSomeSpan(sel.entries)(a, row) <==> InSpan(row[a], Span(lo, hi)) by {
        if InSpan(row[a], Span(lo, hi)) {
          assert InSpan(row[a], sel.entries[a][0]);
        }
      }
    }
  }

  /** What the code does instead: an attribute whose entries are intervals
      goes through `isin`, which matches no cell, so every row is dropped. */
  lemma IntervalSelectionDropsEveryRow(f: Frame, a: string, lo: int, hi: int)
    requires f.Valid() && a in f.columns
    ensures FilterDataframe(f, Put(Empty(), a, [Span(lo, hi)])).value.rows == []
  {
    var sel := Put(Empty(), a, [Span(lo, hi)]);
    assert sel.entries == map[a := [Span(lo, hi)]];
    forall i | 0 <= i < |f.rows| ensures !EveryAttribute(sel, IsIn(sel.entries))(f.rows[i]) {
      assert !IsIn(sel.entries)(a, f.rows[i]);
    }
    KeepNone(f.rows, EveryAttribute(sel, IsIn(sel.entries)));
  }

  /** filter_dataframe exactly as written: evaluating the guard looks up
      `categorical_attributes`, a name that module never binds, so every
      non-empty selection raises `NameError`; an empty one returns the copy. */
  function FilterDataframeAsWritten(f: Frame, sel: Store): (r: Result<Frame>)
    requires f.Valid() && sel.Valid()
    ensures r.Success? <==> sel.entries == map[]
    ensures r.Success? ==> r.value == f
    ensures r.Failure? ==> r.error == UnboundName("categorical_attributes")
  {
    NothingStored(sel);
    if |sel.order| == 0 then Success(f)
    else Failure(UnboundName("categorical_attributes"))
  }

  /** The code as written and both corrected filters agree exactly on the
      empty selection, where all return the frame unchanged; on any other
      selection whose attributes are columns the code as written raises
      while both corrected filters return a frame. */
  lemma AsWrittenAgreesOnlyWhenEmpty(f: Frame, sel: Store)
    requires f.Valid() && sel.Valid()
    ensures sel.entries == map[] ==>
      && FilterDataframeAsWritten(f, sel) == Success(f)
      && FilterDataframe(f, sel) == Success(f)
      && FilterDataframeWithIntervals(f, sel) == Success(f)
    ensures sel.entries != map[] && sel.entries.Keys <= f.columns ==>
      && FilterDataframeAsWritten(f, sel).Failure?
      && FilterDataframe(f, sel).Success?
      && FilterDataframeWithIntervals(f, sel).Success?
  {
    NothingStored(sel);
    if sel.entries == map[] {
      assert sel == Empty();
      FilterDataframeEmpty(f);
      IntervalsAgreeOnPoints(f, sel);
    }
  }

  /** The discrepancy on a concrete selection: a one-row frame with
      `YEAR = 1996` and the selection `YEAR: [1996]`. The code as written
      raises; the evidently intended filter keeps the row. */
  lemma YearSelectionRaisesAsWritten()
    ensures var row: Row := map["YEAR" := Num(1996)];
      var f := Frame({"YEAR"}, [row]);
      var sel := Put(Empty(), "YEAR", [Point(Num(1996))]);
      && FilterDataframeAsWritten(f, sel) == Failure(UnboundName("categorical_attributes"))
      && FilterDataframeWithIntervals(f, sel) == Success(f)
  {
    var row: Row := map["YEAR" := Num(1996)];
    var f := Frame({"YEAR"}, [row]);
    var sel := Put(Empty(), "YEAR", [Point(Num(1996))]);
    assert sel.entries == map["YEAR" := [Point(Num(1996))]];
    IntervalsAgreeOnPoints(f, sel);
    assert EveryAttribute(sel, IsIn(sel.entries))(row);
    assert Keep(f.rows, EveryAttribute(sel, IsIn(sel.entries))) == [row];
  }
}

=== FILE: frame.dfy ===
/** The dataset: a table with named columns, as a sequence of rows. */
module Frames {
  import opened Values

  /** One row, keyed by column name. */
  type Row = map<string, Value>

  datatype Frame = Frame(columns: set<string>, rows: seq<Row>) {
    /** Every row has a cell for exactly the frame's columns. */
    ghost predicate Valid() {
      forall i :: 0 <= i < |rows| ==> rows[i].Keys == columns
    }
  }

  /** The values of column `c`, one per row, in row order (`df[c]`). */
  function Column(f: Frame, c: string): (r: seq<Value>)
    requires f.Valid() && c in f.columns
    ensures |r| == |f.rows|
    ensures forall i :: 0 <= i < |r| ==> r[i] == f.rows[i][c]
  {
    seq(|f.rows|, i requires 0 <= i < |f.rows| => f.rows[i][c])
  }

  // ---------------------------------------------------------------------
  // Boolean masks: `df[mask]` keeps the rows whose mask entry is true.
  // ---------------------------------------------------------------------

  function Mask(rows: seq<Row>, p: Row -> bool): (m: seq<bool>)
    ensures |m| == |rows|
    ensures forall i :: 0 <= i < |rows| ==> m[i] == p(rows[i])
  {
    seq(|rows|, i requires 0 <= i < |rows| => p(rows[i]))
  }

  /** `df[mask]`: the rows at the positions where `mask` is true, in order. */
  function Select(rows: seq<Row>, mask: seq<bool>): (r: seq<Row>)
    requires |mask| == |rows|
    ensures |r| <= |rows|
    decreases |rows|
  {
    if |rows| == 0 then []
    else
      var rest := Select(rows[1..], mask[1..]);
      if mask[0] then [rows[0]] + rest else rest
  }

  /** The rows satisfying `p`, in their original order. */
  function Keep(rows: seq<Row>, p: Row -> bool): (r: seq<Row>)
    ensures |r| <= |rows|
    decreases |rows|
  {
    if |rows| == 0 then []
    else
      var rest := Keep(rows[1..], p);
      if p(rows[0]) then [rows[0]] + rest else rest
  }

  lemma {:induction false} SelectMask(rows: seq<Row>, p: Row -> bool)
    ensures Select(rows, Mask(rows, p)) == Keep(rows, p)
    decreases |rows|
  {
    if |rows| > 0 {
      assert Mask(rows, p)[1..] == Mask(rows[1..], p);
      SelectMask(rows[1..], p);
    }
  }

  lemma {:induction false} KeepMembers(rows: seq<Row>, p: Row -> bool)
    ensures forall x :: x in Keep(rows, p) <==> x in rows && p(x)
    decreases |rows|
  {
    if |rows| > 0 {
      KeepMembers(rows[1..], p);
      assert rows == [rows[0]] + rows[1..];
    }
  }

  /** A filter that holds on every row keeps them all. */
  lemma {:induction false} KeepAll(rows: seq<Row>, p: Row -> bool)
    requires forall i :: 0 <= i < |rows| ==> p(rows[i])
    ensures Keep(rows, p) == rows
    decreases |rows|
  {
    if |rows| > 0 {
      KeepAll(rows[1..], p);
      assert rows == [rows[0]] + rows[1..];
    }
  }

  /** A filter that holds on no row keeps none. */
  lemma {:induction false} KeepNone(rows: seq<Row>, p: Row -> bool)
    requires forall i :: 0 <= i < |rows| ==> !p(rows[i])
    ensures Keep(rows, p) == []
    decreases |rows|
  {
    if |rows| > 0 {
      KeepNone(rows[1..], p);
    }
  }

  /** Filtering twice is filtering once by the conjunction. */
  lemma {:induction false} KeepKeep(rows: seq<Row>, p: Row -> bool, q: Row -> bool, pq: Row -> bool)
    requires forall r :: pq(r) == (p(r) && q(r))
    ensures Keep(Keep(rows, p), q) == Keep(rows, pq)
    decreases |rows|
  {
    if |rows| > 0 {
      KeepKeep(rows[1..], p, q, pq);
    }
  }

  /** Two filters that agree on every row select the same rows. */
  lemma {:induction false} KeepCongruent(rows: seq<Row>, p: Row -> bool, q: Row -> bool)
    requires forall i :: 0 <= i < |rows| ==> p(rows[i]) == q(rows[i])
    ensures Keep(rows, p) == Keep(rows, q)
    decreases |rows|
  {
    if |rows| > 0 {
      KeepCongruent(rows[1..], p, q);
    }
  }

  /** A stronger filter keeps a subsequence of what a weaker one keeps. */
  lemma {:induction false} KeepMonotone(rows: seq<Row>, p: Row -> bool, q: Row -> bool)
    requires forall r :: q(r) ==> p(r)
    ensures IsSubseq(Keep(rows, q), Keep(rows, p))
    decreases |rows|
  {
    if |rows| > 0 {
      KeepMonotone(rows[1..], p, q);
      var kp, kq := Keep(rows[1..], p), Keep(rows[1..], q);
      if q(rows[0]) {
        assert ([rows[0]] + kq)[1..] == kq && ([rows[0]] + kp)[1..] == kp;
      } else if p(rows[0]) {
        SubseqOfCons(kq, kp, rows[0]);
      }
    }
  }

  /** What a filter keeps is an order-preserving subsequence of its input. */
  lemma KeepIsSubseq(rows: seq<Row>, p: Row -> bool)
    ensures IsSubseq(Keep(rows, p), rows)
  {
    KeepMonotone(rows, r => true, p);
    KeepAll(rows, r => true);
  }
}

=== FILE: outcomes.dfy ===
/** The exceptions the modelled code raises, and the result of an
    operation that may raise one. */
module Outcomes {

  datatype Error =
    | NoneFrame                 // ValueError: the input frame is `None`
    | MissingColumn(name: string)  // KeyError from `df[name]`
    | MissingKey(name: string)     // KeyError from `selections[name]`
    | InvalidState(name: string)   // ValueError from the menu state machine
    | Unorderable               // TypeError from `sorted` on plain values of mixed kinds
    | ExtendWithoutArgument     // TypeError from `list.extend()`
    | UnboundName(name: string)    // NameError for a global never defined
    | AmbiguousTruth            // ValueError: truth value of a numpy array, in `not in`
    | AmbiguousOrder            // ValueError: the same, in `sorted` comparing a numpy
                                // number with a stored interval

  datatype Result<+T> = Success(value: T) | Failure(error: Error)
}

=== FILE: session.dfy ===
/** The menu actions of ui.py that move the whole session: entering the
    main menu, "Clear selections", entering the describe menu (which
    filters the frame by the selections), its "Frequency Table" and
    "Discard Dataframe" choices. */
module Session {
  import opened Values
  import opened Outcomes
  import opened Frames
  import opened Selections
  import opened FilterData
  import opened StateMachine
  import opened Describe

  /** The module globals the menus share: the state machine `csm`, the
      selection store `selections` and the last filtered frame
      `filtered_df` (`None` when there is none). */
  datatype Session = Session(machine: Machine, store: Store, filtered: Option<Frame>) {
    ghost predicate Valid() {
      && machine.Valid() && store.Valid()
      && (filtered.Some? ==> filtered.value.Valid())
    }
  }

  /** Entering a menu: `csm.set_state` with one of the four names, which
      cannot raise. */
  function Enter(s: Session, name: string): (r: Session)
    requires s.Valid() && StateId(name).Some?
    ensures r.Valid() && r.store == s.store && r.filtered == s.filtered
    ensures GetState(r.machine) == StateId(name).value
  {
    s.(machine := SetState(s.machine, name).value)
  }

  /** main_menu, line 291: the machine returns to "State Choosing"; the
      selections are shown, not changed. */
  function MainMenu(s: Session): (r: Session)
    requires s.Valid()
    ensures r.Valid() && r.store == s.store && r.filtered == s.filtered
    ensures GetState(r.machine) == 0
  {
    Enter(s, Choosing)
  }

  /** "Clear selections" (lines 309-311): the store becomes empty and the
      main menu is entered again. */
  function ClearSelections(s: Session): (r: Session)
    requires s.Valid()
    ensures r.Valid() && r.store == Empty() && r.filtered == s.filtered
    ensures GetState(r.machine) == 0
  {
    MainMenu(s.(store := Empty()))
  }

  /** Entering the describe menu from the main menu (lines 384-394): the
      machine moves to "Describe Selection" and the frame is filtered by
      the selections. The filter as written raises `NameError` on every
      non-empty selection; the main menu's handler catches it (lines
      312-313) and the main menu is entered again with the store and the
      last filtered frame unchanged. So the describe menu is only reached
      with nothing selected, and then the filtered frame is the frame. */
  function EnterDescribe(df: Frame, s: Session): (r: Session)
    requires s.Valid() && df.Valid()
    ensures r.Valid() && r.store == s.store
    ensures s.store.entries != map[] ==> r == MainMenu(s)
    ensures s.store.entries == map[] ==> GetState(r.machine) == 2 && r.filtered == Some(df)
  {
    var described := Enter(s, Describing);
    match FilterDataframeAsWritten(df, s.store)
    case Success(filtered) => described.(filtered := Some(filtered))
    case Failure(_) => MainMenu(s)
  }

  /** The same step with the filter evidently intended: the describe menu
      is reached whenever every selected attribute is a column, holding the
      rows the selections accept; otherwise the `KeyError` is caught and
      the main menu is entered again. */
  function EnterDescribeCorrected(df: Frame, s: Session): (r: Session)
    requires s.Valid() && df.Valid()
    ensures r.Valid() && r.store == s.store
    ensures s.store.entries.Keys <= df.columns ==>
      && GetState(r.machine) == 2
      && r.filtered == Some(FilterDataframeWithIntervals(df, s.store).value)
    ensures !(s.store.entries.Keys <= df.columns) ==> r == MainMenu(s)
  {
    var described := Enter(s, Describing);
    match FilterDataframeWithIntervals(df, s.store)
    case Success(filtered) => described.(filtered := Some(filtered))
    case Failure(_) => MainMenu(s)
  }

  /** "Frequency Table" (line 411, with the refiltering of lines 400-401):
      `count_table` over the filtered frame and the current selections,
      with the corner line 18 computes. The refiltering is the filter as
      written, and its exception is not caught there. */
  function FrequencyTable(df: Frame, s: Session): (r: Result<Report>)
    requires s.Valid() && df.Valid()
    ensures s.filtered.None? && s.store.entries != map[] ==>
      r == Failure(UnboundName("categorical_attributes"))
    ensures s.store.entries == map[] ==> r == Success(NothingSelected)
  {
    NothingStored(s.store);
    match s.filtered
    case Some(filtered) => CountTables(filtered, s.store, AsWritten)
    case None =>
      match FilterDataframeAsWritten(df, s.store)
      case Success(filtered) => CountTables(filtered, s.store, AsWritten)
      case Failure(e) => Failure(e)
  }

  /** The same choice with the evidently intended filter and corner. */
  function FrequencyTableCorrected(df: Frame, s: Session): (r: Result<Report>)
    requires s.Valid() && df.Valid()
    ensures s.filtered.None? ==>
      (r.Failure? <==> !(s.store.entries.Keys <= df.columns))
    ensures s.store.entries == map[] ==> r == Success(NothingSelected)
  {
    NothingStored(s.store);
    match s.filtered
    case Some(filtered) => CountTables(filtered, s.store, GrandTotal)
    case None =>
      match FilterDataframeWithIntervals(df, s.store)
      case Success(filtered) => CountTables(filtered, s.store, GrandTotal)
      case Failure(e) => Failure(e)
  }

  /** As written, the frequency table of the describe menu is only ever
      reached with nothing selected, and then reports exactly that. */
  lemma FrequencyTableAfterDescribe(df: Frame, s: Session)
    requires s.Valid() && df.Valid()
    requires GetState(EnterDescribe(df, s).machine) == 2
    ensures s.store.entries == map[]
    ensures FrequencyTable(df, EnterDescribe(df, s)) == Success(NothingSelected)
  {
  }

  /** With the corrected filter, once the describe menu has been entered
      its frequency table cannot raise: every selected attribute is a
      column of the filtered frame, which has the columns of the original
      one. */
  lemma FrequencyTableAfterDescribeCorrected(df: Frame, s: Session)
    requires s.Valid() && df.Valid()
    requires GetState(EnterDescribeCorrected(df, s).machine) == 2
    ensures FrequencyTableCorrected(df, EnterDescribeCorrected(df, s)).Success?
  {
  }

  /** "Discard Dataframe" (lines 416-418): the filtered frame and the
      selections are dropped and the main menu is entered again. */
  function DiscardDataframe(s: Session): (r: Session)
    requires s.Valid()
    ensures r.Valid() && r.store == Empty() && r.filtered == None
    ensures GetState(r.machine) == 0
  {
    MainMenu(s.(store := Empty(), filtered := None))
  }

  /** After either reset every selection-dependent view is empty: the
      frequency table reports that nothing is selected and the filter
      keeps every row. */
  lemma ResetsSelectNothing(df: Frame, s: Session)
    requires s.Valid() && df.Valid()
    ensures FrequencyTable(df, DiscardDataframe(s)) == Success(NothingSelected)
    ensures FrequencyTableCorrected(df, DiscardDataframe(s)) == Success(NothingSelected)
    ensures FilterDataframeAsWritten(df, ClearSelections(s).store) == Success(df)
    ensures FilterDataframeWithIntervals(df, ClearSelections(s).store) == Success(df)
  {
    AsWrittenAgreesOnlyWhenEmpty(df, Empty());
  }
}

=== FILE: state_machine.dfy ===
/** The menu state machine of ClientStateMachine.py: four named states
    numbered 0..3, entered unconditionally by name. */
module StateMachine {
  import opened Values
  import opened Outcomes

  datatype Machine = Machine(state: int) {
    /** The state is always one of the four numbers. */
    ghost predicate Valid() {
      0 <= state <= 3
    }
  }

  const Choosing: string := "State Choosing"
  const Selecting: string := "Make Selection"
  const Describing: string := "Describe Selection"
  const Plotting: string := "Plot Selection"

  /** The `STATES` table: a name's number, or `None` for an unknown name. */
  function StateId(name: string): (r: Option<int>)
    ensures r.Some? <==> name in {Choosing, Selecting, Describing, Plotting}
    ensures r.Some? ==> 0 <= r.value <= 3
  {
    if name == Choosing then Some(0)
    else if name == Selecting then Some(1)
    else if name == Describing then Some(2)
    else if name == Plotting then Some(3)
    else None
  }

  /** The name each number stands for. */
  function StateName(id: int): (name: string)
    requires 0 <= id <= 3
    ensures StateId(name) == Some(id)
  {
    if id == 0 then Choosing
    else if id == 1 then Selecting
    else if id == 2 then Describing
    else Plotting
  }

  /** A fresh machine is in "State Choosing". */
  function Init(): (m: Machine)
    ensures m.Valid()
    ensures m.state == StateId(Choosing).value
  {
    Machine(0)
  }

  function GetState(m: Machine): (r: int)
    requires m.Valid()
    ensures 0 <= r <= 3
    ensures StateId(StateName(r)) == Some(r)
  {
    m.state
  }

  /** set_state: a known name moves the machine to that name's number from
      any state; an unknown name raises `ValueError` (the caller's machine
      is left as it was). */
  function SetState(m: Machine, name: string): (r: Result<Machine>)
    requires m.Valid()
    ensures StateId(name).None? <==> r == Failure(InvalidState(name))
    ensures r.Success? ==> r.value.Valid() && GetState(r.value) == StateId(name).value
  {
    match StateId(name)
    case None => Failure(InvalidState(name))
    case Some(id) => Success(Machine(id))
  }

  /** No guards: every state reaches every state in one call. */
  lemma EveryStateReachable(m: Machine, target: int)
    requires m.Valid() && 0 <= target <= 3
    ensures SetState(m, StateName(target)) == Success(Machine(target))
  {
  }

  /** Setting the same name twice is the same as setting it once, and the
      result does not depend on where the machine was. */
  lemma SetStateIdempotent(m: Machine, n: Machine, name: string)
    requires m.Valid() && n.Valid()
    requires SetState(m, name).Success?
    ensures SetState(SetState(m, name).value, name) == SetState(m, name)
    ensures SetState(n, name) == SetState(m, name)
  {
  }

  /** Names and numbers are in one-to-one correspondence. */
  lemma NamesAreDistinct(a: string, b: string)
    requires StateId(a).Some? && StateId(a) == StateId(b)
    ensures a == b
  {
  }
}

=== FILE: store.dfy ===
/** The selection store: for each selected attribute, the list of accepted
    entries. Python dictionaries remember insertion order, and that order
    decides which `KeyError` a filter reports and in which order the
    count tables are built, so the store keeps it. */
module Selections {
  import opened Values
  import opened Outcomes

  datatype Store = Store(order: seq<string>, entries: map<string, seq<Item>>) {
    /** `order` lists each key of `entries` exactly once. */
    ghost predicate Valid() {
      && Distinct(order)
      && (forall k :: k in entries <==> k in order)
    }
  }

  /** The state after a callback that may raise part-way: the store as the
      callback left it, and the exception it raised, if any. */
  datatype Step = Step(store: Store, raised: Option<Error>)

  function Empty(): (r: Store)
    ensures r.Valid() && |r.order| == 0 && r.entries == map[]
  {
    Store([], map[])
  }

  /** A store has no keys exactly when its order is empty. */
  lemma NothingStored(s: Store)
    requires s.Valid()
    ensures s.entries == map[] <==> |s.order| == 0
  {
    if |s.order| > 0 {
      assert s.order[0] in s.entries;
    }
  }

  /** `selections[k] = v`: an existing key keeps its place, a new key goes
      last. */
  function Put(s: Store, k: string, v: seq<Item>): (r: Store)
    requires s.Valid()
    ensures r.Valid()
    ensures r.entries == s.entries[k := v]
    ensures k in s.entries ==> r.order == s.order
    ensures k !in s.entries ==> r.order == s.order + [k]
  {
    if k in s.entries then Store(s.order, s.entries[k := v])
    else Store(s.order + [k], s.entries[k := v])
  }

  /** The keys of `order` other than `k`, in their order. */
  function Without(order: seq<string>, k: string): (r: seq<string>)
    ensures forall x :: x in r <==> x in order && x != k
    ensures Distinct(order) ==> Distinct(r)
    ensures k !in order ==> r == order
    decreases |order|
  {
    if |order| == 0 then []
    else
      var rest := Without(order[1..], k);
      assert forall x :: x in order <==> x == order[0] || x in order[1..];
      assert Distinct(order) ==> order[0] !in order[1..] && Distinct(order[1..]);
      if order[0] == k then rest else [order[0]] + rest
  }

  /** Cutting position `j + 1` out of a sequence is keeping its head and
      cutting position `j` out of its tail. */
  lemma CutAfterHead<T>(xs: seq<T>, j: nat)
    requires j + 1 < |xs|
    ensures xs[..j + 1] + xs[j + 2..] == [xs[0]] + (xs[1..][..j] + xs[1..][j + 1..])
  {
    assert xs[..j + 1] == [xs[0]] + xs[1..][..j];
    assert xs[j + 2..] == xs[1..][j + 1..];
  }

  /** When `k` occurs once, `Without` cuts out exactly that occurrence: the
      keys before it and after it keep their order. */
  lemma {:induction false} WithoutCutsOut(order: seq<string>, k: string)
    requires Distinct(order) && k in order
    ensures exists i :: 0 <= i < |order| && order[i] == k && Without(order, k) == order[..i] + order[i + 1..]
    decreases |order|
  {
    var tail := order[1..];
    var rest := Without(tail, k);
    assert Distinct(tail);
    if order[0] == k {
      assert k !in tail by {
        forall j | 0 <= j < |tail| ensures tail[j] != k {
          assert tail[j] == order[j + 1];
        }
      }
      assert Without(order, k) == order[..0] + order[0 + 1..];
    } else {
      assert Without(order, k) == [order[0]] + rest;
      assert k in tail by { assert order == [order[0]] + tail; }
      WithoutCutsOut(tail, k);
      var j :| 0 <= j < |tail| && tail[j] == k && rest == tail[..j] + tail[j + 1..];
      var i := j + 1;
      CutAfterHead(order, j);
      assert order[i] == k && Without(order, k) == order[..i] + order[i + 1..];
    }
  }

  /** `selections.pop(k, None)`: drops `k` if present; the other keys keep
      their values and their relative order. */
  function Remove(s: Store, k: string): (r: Store)
    requires s.Valid()
    ensures r.Valid()
    ensures r.entries == s.entries - {k}
    ensures k !in s.entries ==> r == s
    ensures k in s.entries ==>
      exists i :: 0 <= i < |s.order| && s.order[i] == k && r.order == s.order[..i] + s.order[i + 1..]
  {
    if k in s.entries then
      WithoutCutsOut(s.order, k);
      Store(Without(s.order, k), s.entries - {k})
    else s
  }
}

=== FILE: text.dfy ===
/** The string operations behind the value search box: `str(value)`,
    `.lower()` and the substring test `needle in haystack`. */
module Text {
  import opened Values

  /** Decimal digits of a natural number, most significant first. */
  function Digits(n: nat): (r: string)
    ensures |r| > 0
    ensures forall i :: 0 <= i < |r| ==> '0' <= r[i] <= '9'
    decreases n
  {
    var d := [(('0' as int) + n % 10) as char];
    if n < 10 then d else Digits(n / 10) + d
  }

  /** Python's `str(value)` for a cell value. */
  function Repr(v: Value): string {
    match v
    case Num(n) => if n < 0 then "-" + Digits(-n) else Digits(n)
    case Text(s) => s
  }

  function LowerChar(c: char): char {
    if 'A' <= c <= 'Z' then ((c as int) + 32) as char else c
  }

  /** `s.lower()` on the ASCII letters. */
  function Lower(s: string): (r: string)
    ensures |r| == |s|
    ensures forall i :: 0 <= i < |s| ==> r[i] == LowerChar(s[i])
  {
    seq(|s|, i requires 0 <= i < |s| => LowerChar(s[i]))
  }

  ghost predicate OccursAt(needle: string, hay: string, i: int) {
    0 <= i && i + |needle| <= |hay| && hay[i..i + |needle|] == needle
  }

  /** `needle in hay` for Python strings: some position of `hay` starts a
      copy of `needle`. */
  ghost predicate IsInfix(needle: string, hay: string) {
    exists i :: OccursAt(needle, hay, i)
  }

  /** The executable substring test, scanning `hay` from the left. */
  function Contains(needle: string, hay: string): (b: bool)
    ensures b <==> IsInfix(needle, hay)
    decreases |hay|
  {
    if |needle| > |hay| then
      assert forall i :: !OccursAt(needle, hay, i);
      false
    else if hay[..|needle|] == needle then
      assert OccursAt(needle, hay, 0);
      true
    else
      var rest := Contains(needle, hay[1..]);
      InfixOfTail(needle, hay);
      rest
  }

  lemma InfixOfTail(needle: string, hay: string)
    requires |needle| <= |hay| && hay[..|needle|] != needle
    ensures IsInfix(needle, hay) <==> IsInfix(needle, hay[1..])
  {
    if IsInfix(needle, hay) {
      var i :| OccursAt(needle, hay, i);
      assert i != 0;
      assert hay[1..][i - 1..i - 1 + |needle|] == hay[i..i + |needle|];
      assert OccursAt(needle, hay[1..], i - 1);
    }
    if IsInfix(needle, hay[1..]) {
      var i :| OccursAt(needle, hay[1..], i);
      assert hay[1..][i..i + |needle|] == hay[i + 1..i + 1 + |needle|];
      assert OccursAt(needle, hay, i + 1);
    }
  }

  /** The empty search text occurs in every string. */
  lemma EmptyIsInfix(hay: string)
    ensures Contains("", hay)
  {
    assert OccursAt("", hay, 0);
  }

  /** The case-insensitive test the search box applies to one value. */
  predicate MatchesSearch(search: string, v: Value) {
    Contains(Lower(search), Lower(Repr(v)))
  }
}

=== FILE: ui_selection.dfy ===
/** The selection callbacks of the categorical picker in ui.py
    (`create_ui`): value search, add, select all, deselect all. */
module UiSelection {
  import opened Values
  import opened Outcomes
  import opened Text
  import opened Selections

  /** Every key other than `attr` has the same entry before and after. */
  ghost predicate OnlyTouches(before: Store, after: Store, attr: string) {
    forall k :: k != attr ==>
      && (k in before.entries <==> k in after.entries)
      && (k in before.entries ==> before.entries[k] == after.entries[k])
  }

  /** The values of `vs` whose text contains the search text, ignoring
      case, in their original order. */
  function Matching(search: string, vs: seq<Value>): (r: seq<Value>)
    ensures forall v :: v in r <==> v in vs && MatchesSearch(search, v)
    ensures Distinct(vs) ==> Distinct(r)
    decreases |vs|
  {
    if |vs| == 0 then []
    else
      var rest := Matching(search, vs[1..]);
      assert forall v :: v in vs <==> v == vs[0] || v in vs[1..];
      assert Distinct(vs) ==> vs[0] !in vs[1..] && Distinct(vs[1..]);
      if MatchesSearch(search, vs[0]) then [vs[0]] + rest else rest
  }

  /** get_filtered_values: with an empty search text, all distinct values of
      the column; otherwise those whose `str` contains the search text,
      case-insensitively. */
  function GetFilteredValues(search: string, column: seq<Value>): (r: seq<Value>)
    ensures Distinct(r)
    ensures forall v :: v in r <==> v in column && (|search| == 0 || MatchesSearch(search, v))
  {
    if |search| > 0 then Matching(search, Unique(column)) else Unique(column)
  }

  /** The empty search text occurs in every value, so both branches of
      get_filtered_values agree with the plain search filter. */
  lemma {:induction false} FilteredValuesIsSearch(search: string, column: seq<Value>)
    ensures GetFilteredValues(search, column) == Matching(search, Unique(column))
  {
    if |search| == 0 {
      MatchingEverything(search, Unique(column));
    }
  }

  lemma {:induction false} MatchingEverything(search: string, vs: seq<Value>)
    requires |search| == 0
    ensures Matching(search, vs) == vs
    decreases |vs|
  {
    if |vs| > 0 {
      EmptyIsInfix(Lower(Repr(vs[0])));
      MatchingEverything(search, vs[1..]);
    }
  }

  /** The option list of the value picker: the filtered values, sorted
      (`sorted(filtered_values)`); `None` when they cannot be compared. */
  function OptionList(search: string, column: seq<Value>): (r: Option<seq<Item>>)
    ensures r.Some? <==> Orderable(Points(GetFilteredValues(search, column)))
    ensures r.Some? ==> Sorted(r.value) && Distinct(r.value)
    ensures r.Some? ==> forall x :: x in r.value <==>
      x.Point? && x.v in column && (|search| == 0 || MatchesSearch(search, x.v))
  {
    var vs := GetFilteredValues(search, column);
    var r := PySorted(Points(vs));
    if r.Some? then
      SortPoints(vs);
      r
    else r
  }

  /** add_selection: nothing chosen leaves the store alone; a new attribute
      stores exactly the choice; an existing one gets appended, in the
      order they were chosen, the chosen values it lacks, each once when
      the choice has no repeats. No other key changes. The chosen values
      are plain Python values from the option list, so comparing one with
      a stored interval is simply false. */
  function AddSelection(s: Store, attr: string, chosen: seq<Value>): (r: Store)
    requires s.Valid()
    ensures r.Valid() && OnlyTouches(s, r, attr)
    ensures |chosen| == 0 ==> r == s
    ensures |chosen| > 0 && attr !in s.entries ==> attr in r.entries && r.entries[attr] == Points(chosen)
    ensures attr in s.entries ==>
      && attr in r.entries
      && s.entries[attr] <= r.entries[attr]
      && (forall x :: x in r.entries[attr] <==> x in s.entries[attr] || (x.Point? && x.v in chosen))
      && (forall i :: |s.entries[attr]| <= i < |r.entries[attr]| ==> r.entries[attr][i] !in s.entries[attr])
      && IsSubseq(r.entries[attr][|s.entries[attr]|..], Points(chosen))
    ensures attr in s.entries && Distinct(chosen) ==>
      forall x :: multiset(r.entries[attr])[x] ==
        multiset(s.entries[attr])[x] + (if x.Point? && x.v in chosen && x !in s.entries[attr] then 1 else 0)
  {
    if |chosen| == 0 then s
    else if attr in s.entries then
      var current := s.entries[attr];
      var changes := Fresh(chosen, current);
      assert (current + changes)[|current|..] == changes;
      FreshOnce(chosen, current);
      if |changes| > 0 then Put(s, attr, current + changes)
      else
        assert current[|current|..] == [];
        s
    else Put(s, attr, Points(chosen))
  }

  /** `[value for value in chosen if value not in current]`, as entries:
      the chosen values the entry lacks, in the order chosen. */
  function Fresh(chosen: seq<Value>, current: seq<Item>): (r: seq<Item>)
    ensures forall x :: x in r <==> x.Point? && x.v in chosen && x !in current
    ensures Distinct(chosen) ==> Distinct(r)
    ensures IsSubseq(r, Points(chosen))
    decreases |chosen|
  {
    if |chosen| == 0 then []
    else
      var rest := Fresh(chosen[1..], current);
      assert forall v :: v in chosen <==> v == chosen[0] || v in chosen[1..];
      assert Distinct(chosen) ==> chosen[0] !in chosen[1..] && Distinct(chosen[1..]);
      assert Points(chosen) == [Point(chosen[0])] + Points(chosen[1..]);
      if Point(chosen[0]) in current then
        SubseqOfCons(rest, Points(chosen[1..]), Point(chosen[0]));
        rest
      else
        assert ([Point(chosen[0])] + rest)[1..] == rest;
        [Point(chosen[0])] + rest
  }

  /** Without repeats in the choice, appending the fresh values adds each
      chosen value the entry lacks exactly once. */
  lemma FreshOnce(chosen: seq<Value>, current: seq<Item>)
    ensures Distinct(chosen) ==> forall x :: (multiset(current + Fresh(chosen, current))[x] ==
      multiset(current)[x] + (if x.Point? && x.v in chosen && x !in current then 1 else 0))
  {
    if Distinct(chosen) {
      forall x ensures multiset(current + Fresh(chosen, current))[x] ==
        multiset(current)[x] + (if x.Point? && x.v in chosen && x !in current then 1 else 0)
      {
        DistinctCount(Fresh(chosen, current), x);
      }
    }
  }

  /** Adding the same choice twice changes nothing the second time. */
  lemma AddSelectionIdempotent(s: Store, attr: string, chosen: seq<Value>)
    requires s.Valid()
    ensures AddSelection(AddSelection(s, attr, chosen), attr, chosen) == AddSelection(s, attr, chosen)
  {
    var once := AddSelection(s, attr, chosen);
    if |chosen| > 0 {
      assert attr in once.entries;
      var again := Fresh(chosen, once.entries[attr]);
      if |again| > 0 {
        assert again[0] in again;
        if attr !in s.entries {
          PointsMembership(chosen, again[0].v);
        }
      }
    }
  }

  /** select_all: the attribute's entry becomes the picker's current
      option list, as it stands (`list(value_selection.options)`); it
      cannot raise. The options are whatever the last successful update of
      the picker put there. */
  function SelectAll(s: Store, attr: string, options: seq<Value>): (r: Store)
    requires s.Valid()
    ensures r.Valid() && OnlyTouches(s, r, attr)
    ensures attr in r.entries && r.entries[attr] == Points(options)
    ensures attr in s.entries ==> r.order == s.order
    ensures attr !in s.entries ==> r.order == s.order + [attr]
  {
    Put(s, attr, Points(options))
  }

  /** When the options are those of the current search, select_all stores
      exactly the matching values of the column, sorted and each once. */
  lemma SelectAllStoresMatches(s: Store, attr: string, search: string, column: seq<Value>, options: seq<Value>)
    requires s.Valid()
    requires OptionList(search, column) == Some(Points(options))
    ensures var e := SelectAll(s, attr, options).entries[attr];
      && Sorted(e) && Distinct(e)
      && forall x :: x in e <==> x.Point? && x.v in column && (|search| == 0 || MatchesSearch(search, x.v))
  {
  }

  /** Deselecting after selecting all undoes the selection: the attribute
      is gone and every other key is as before. */
  lemma SelectAllThenDeselect(s: Store, attr: string, options: seq<Value>)
    requires s.Valid()
    ensures var r := DeselectAll(SelectAll(s, attr, options), attr);
      && attr !in r.entries && OnlyTouches(s, r, attr)
      && r.entries == s.entries - {attr}
  {
    var t := SelectAll(s, attr, options);
    assert t.entries == s.entries[attr := Points(options)];
    DeselectAllIsClear(t, attr);
    PutThenDrop(s.entries, attr, Points(options));
    DropOnlyTouches(s, Remove(t, attr), attr);
  }

  /** Setting a key and then dropping it is dropping it. */
  lemma PutThenDrop<K, V>(m: map<K, V>, k: K, v: V)
    ensures m[k := v] - {k} == m - {k}
  {
  }

  /** Dropping one key touches no other. */
  lemma DropOnlyTouches(s: Store, r: Store, attr: string)
    requires r.entries == s.entries - {attr}
    ensures OnlyTouches(s, r, attr)
  {
  }

  /** deselect_all: drop the attribute if it is present, otherwise do
      nothing. */
  function DeselectAll(s: Store, attr: string): (r: Store)
    requires s.Valid()
  {
    if attr in s.entries then
      var r := Remove(s, attr);
      if |r.order| == 0 then Empty() else r
    else s
  }

  /** deselect_all is `pop(attr, None)`: it removes the attribute, touches
      nothing else, and is a no-op when the attribute is absent. */
  lemma DeselectAllIsClear(s: Store, attr: string)
    requires s.Valid()
    ensures DeselectAll(s, attr) == Remove(s, attr)
    ensures attr !in DeselectAll(s, attr).entries && OnlyTouches(s, DeselectAll(s, attr), attr)
    ensures attr !in s.entries ==> DeselectAll(s, attr) == s
  {
    var r := Remove(s, attr);
    if attr in s.entries && |r.order| == 0 {
      assert forall k :: k in r.entries ==> k in r.order;
      assert r.entries == map[];
    }
  }
}

=== FILE: values.dfy ===
/** Cell values, stored selection entries, and the orderings the program
    relies on when it sorts them.

    A cell of the dataset holds a number or a text. A selection stores a
    list whose entries are either a single cell value or a closed interval
    `[start, end]` (the list the numeric range picker stores).
 */
module Values {

  datatype Option<+T> = None | Some(value: T)

  /** One cell of the dataset. */
  datatype Value = Num(n: int) | Text(s: string)

  /** One entry of a stored selection list. */
  datatype Item = Point(v: Value) | Span(lo: int, hi: int)

  // ---------------------------------------------------------------------
  // Orderings
  // ---------------------------------------------------------------------

  /** Code-point lexicographic order on strings, as Python compares `str`. */
  predicate StrLe(a: string, b: string)
    decreases |a|
  {
    |a| == 0 || (|b| > 0 && (a[0] < b[0] || (a[0] == b[0] && StrLe(a[1..], b[1..]))))
  }

  /** Numbers come before texts (the order pandas' grouping uses for a
      column that mixes both); numbers by value, texts by `StrLe`. */
  predicate ValueLe(a: Value, b: Value) {
    match (a, b)
    case (Num(x), Num(y)) => x <= y
    case (Text(x), Text(y)) => StrLe(x, y)
    case (Num(_), Text(_)) => true
    case (Text(_), Num(_)) => false
  }

  /** Single values before intervals; intervals compare like the Python
      lists `[lo, hi]` they stand for. */
  predicate ItemLe(a: Item, b: Item) {
    match (a, b)
    case (Point(x), Point(y)) => ValueLe(x, y)
    case (Span(l1, h1), Span(l2, h2)) => l1 < l2 || (l1 == l2 && h1 <= h2)
    case (Point(_), Span(_, _)) => true
    case (Span(_, _), Point(_)) => false
  }

  lemma {:induction false} StrLeTotal(a: string, b: string)
    ensures StrLe(a, b) || StrLe(b, a)
    decreases |a|
  {
    if |a| > 0 && |b| > 0 && a[0] == b[0] {
      StrLeTotal(a[1..], b[1..]);
    }
  }

  lemma {:induction false} StrLeTransitive(a: string, b: string, c: string)
    requires StrLe(a, b) && StrLe(b, c)
    ensures StrLe(a, c)
    decreases |a|
  {
    if |a| > 0 && a[0] == b[0] && b[0] == c[0] {
      StrLeTransitive(a[1..], b[1..], c[1..]);
    }
  }

  lemma {:induction false} StrLeAntisymmetric(a: string, b: string)
    requires StrLe(a, b) && StrLe(b, a)
    ensures a == b
    decreases |a|
  {
    if |a| > 0 {
      StrLeAntisymmetric(a[1..], b[1..]);
      assert a == [a[0]] + a[1..] && b == [b[0]] + b[1..];
    }
  }

  lemma ItemLeTotal(a: Item, b: Item)
    ensures ItemLe(a, b) || ItemLe(b, a)
  {
    if a.Point? && b.Point? && a.v.Text? && b.v.Text? {
      StrLeTotal(a.v.s, b.v.s);
    }
  }

  lemma ItemLeTransitive(a: Item, b: Item, c: Item)
    requires ItemLe(a, b) && ItemLe(b, c)
    ensures ItemLe(a, c)
  {
    if a.Point? && b.Point? && c.Point? && a.v.Text? && b.v.Text? && c.v.Text? {
      StrLeTransitive(a.v.s, b.v.s, c.v.s);
    }
  }

  lemma ItemLeAntisymmetric(a: Item, b: Item)
    requires ItemLe(a, b) && ItemLe(b, a)
    ensures a == b
  {
    if a.Point? && b.Point? && a.v.Text? && b.v.Text? {
      StrLeAntisymmetric(a.v.s, b.v.s);
    }
  }

  // ---------------------------------------------------------------------
  // Sorting
  // ---------------------------------------------------------------------

  ghost predicate Sorted(xs: seq<Item>) {
    forall i, j :: 0 <= i < j < |xs| ==> ItemLe(xs[i], xs[j])
  }

  /** Two entries Python can compare with `<`: both numbers, both texts,
      or both intervals. */
  predicate SameKind(a: Item, b: Item) {
    match (a, b)
    case (Point(Num(_)), Point(Num(_))) => true
    case (Point(Text(_)), Point(Text(_))) => true
    case (Span(_, _), Span(_, _)) => true
    case _ => false
  }

  /** Python's `sorted` succeeds on the list exactly when every pair of
      entries is comparable. */
  predicate Orderable(xs: seq<Item>) {
    forall i, j :: 0 <= i < |xs| && 0 <= j < |xs| ==> SameKind(xs[i], xs[j])
  }

  function Insert(x: Item, xs: seq<Item>): (r: seq<Item>)
    requires Sorted(xs)
    ensures Sorted(r)
    ensures multiset(r) == multiset(xs) + multiset{x}
    decreases |xs|
  {
    if |xs| == 0 then [x]
    else if ItemLe(x, xs[0]) then
      assert forall j :: 0 < j < |xs| ==> ItemLe(x, xs[j]) by {
        forall j | 0 < j < |xs| ensures ItemLe(x, xs[j]) {
          ItemLeTransitive(x, xs[0], xs[j]);
        }
      }
      [x] + xs
    else
      ItemLeTotal(x, xs[0]);
      var rest := Insert(x, xs[1..]);
      assert xs == [xs[0]] + xs[1..];
      BoundByMultiset(xs[0], x, xs[1..], rest);
      [xs[0]] + rest
  }

  /** A lower bound of `x` and of every entry of `xs` bounds every entry
      of a permutation of `xs` with `x` added. */
  lemma BoundByMultiset(b: Item, x: Item, xs: seq<Item>, r: seq<Item>)
    requires ItemLe(b, x) && forall j :: 0 <= j < |xs| ==> ItemLe(b, xs[j])
    requires multiset(r) == multiset(xs) + multiset{x}
    ensures forall k :: 0 <= k < |r| ==> ItemLe(b, r[k])
  {
    forall k | 0 <= k < |r| ensures ItemLe(b, r[k]) {
      assert r[k] in multiset(r);
      if r[k] != x {
        assert r[k] in multiset(xs);
        var j :| 0 <= j < |xs| && xs[j] == r[k];
      }
    }
  }

  /** Insertion sort under `ItemLe`: the unique sorted permutation. */
  function Sort(xs: seq<Item>): (r: seq<Item>)
    ensures Sorted(r)
    ensures multiset(r) == multiset(xs)
    decreases |xs|
  {
    if |xs| == 0 then []
    else
      assert xs == [xs[0]] + xs[1..];
      Insert(xs[0], Sort(xs[1..]))
  }

  /** Python's `sorted(xs)`: `None` when two entries of different kinds
      meet. On plain Python values that is a `TypeError`; a numpy number
      meeting an interval list raises `ValueError` instead, and the caller,
      which knows where its numbers come from, names the exception. */
  function PySorted(xs: seq<Item>): (r: Option<seq<Item>>)
    ensures r.Some? <==> Orderable(xs)
    ensures r.Some? ==> Sorted(r.value) && multiset(r.value) == multiset(xs)
  {
    if Orderable(xs) then Some(Sort(xs)) else None
  }

  lemma SortedHeadIsLeast(a: seq<Item>, x: Item)
    requires Sorted(a) && x in multiset(a)
    ensures ItemLe(a[0], x)
  {
    var i :| 0 <= i < |a| && a[i] == x;
    if i == 0 {
      ItemLeTotal(x, x);
    }
  }

  /** Sorting yields the only sorted arrangement of its input. */
  lemma {:induction false} SortedPermutationUnique(a: seq<Item>, b: seq<Item>)
    requires Sorted(a) && Sorted(b) && multiset(a) == multiset(b)
    ensures a == b
    decreases |a|
  {
    if |a| > 0 {
      assert |b| == |a| by {
        assert |multiset(b)| == |multiset(a)|;
      }
      SortedHeadIsLeast(a, b[0]);
      SortedHeadIsLeast(b, a[0]);
      ItemLeAntisymmetric(a[0], b[0]);
      var ta, tb := a[1..], b[1..];
      TailMultiset(a);
      TailMultiset(b);
      assert Sorted(ta) && Sorted(tb);
      SortedPermutationUnique(ta, tb);
    }
  }

  lemma TailMultiset<T>(a: seq<T>)
    requires |a| > 0
    ensures multiset(a[1..]) == multiset(a) - multiset{a[0]}
  {
    assert a == [a[0]] + a[1..];
  }

  // ---------------------------------------------------------------------
  // Distinct sequences and order-of-appearance de-duplication
  // ---------------------------------------------------------------------

  ghost predicate Distinct<T>(xs: seq<T>) {
    forall i, j :: 0 <= i < j < |xs| ==> xs[i] != xs[j]
  }

  lemma {:induction false} DistinctByMultiset<T>(xs: seq<T>, ys: seq<T>)
    requires Distinct(xs) && multiset(xs) == multiset(ys)
    ensures Distinct(ys)
    decreases |xs|
  {
    if |xs| > 0 {
      // Every element of a distinct sequence occurs exactly once.
      forall i, j | 0 <= i < j < |ys| ensures ys[i] != ys[j] {
        if ys[i] == ys[j] {
          var x := ys[i];
          assert ys == ys[..i] + [ys[i]] + ys[i + 1..j] + [ys[j]] + ys[j + 1..];
          assert multiset(ys)[x] >= 2;
          OccursOnce(xs, x);
          assert false;
        }
      }
    }
  }

  lemma {:induction false} OccursOnce<T>(xs: seq<T>, x: T)
    requires Distinct(xs)
    ensures multiset(xs)[x] <= 1
    decreases |xs|
  {
    if |xs| > 0 {
      assert xs == [xs[0]] + xs[1..];
      OccursOnce(xs[1..], x);
      if xs[0] == x {
        assert x !in xs[1..];
      }
    }
  }

  /** `a` is `b` with some entries dropped and the rest in the same order. */
  ghost predicate IsSubseq<T>(a: seq<T>, b: seq<T>)
    decreases |b|
  {
    if |a| == 0 then true
    else if |b| == 0 then false
    else if a[0] == b[0] then IsSubseq(a[1..], b[1..])
    else IsSubseq(a, b[1..])
  }

  lemma {:induction false} SubseqOfCons<T>(a: seq<T>, b: seq<T>, x: T)
    requires IsSubseq(a, b)
    ensures IsSubseq(a, [x] + b)
    decreases |b|, 1
  {
    if |a| > 0 && a[0] == x {
      // `a[1..]` is a subsequence of `b` as well: drop `a[0]` from the match.
      SubseqDropHead(a, b);
      assert ([x] + b)[1..] == b;
    } else {
      assert ([x] + b)[1..] == b;
    }
  }

  lemma {:induction false} SubseqDropHead<T>(a: seq<T>, b: seq<T>)
    requires |a| > 0 && IsSubseq(a, b)
    ensures IsSubseq(a[1..], b)
    decreases |b|, 0
  {
    if a[0] == b[0] {
      SubseqOfCons(a[1..], b[1..], b[0]);
      assert b == [b[0]] + b[1..];
    } else {
      SubseqDropHead(a, b[1..]);
      SubseqOfCons(a[1..], b[1..], b[0]);
      assert b == [b[0]] + b[1..];
    }
  }

  /** In a distinct sequence every element occurs once and nothing else
      occurs at all. */
  lemma DistinctCount<T>(xs: seq<T>, x: T)
    requires Distinct(xs)
    ensures multiset(xs)[x] == if x in xs then 1 else 0
  {
    OccursOnce(xs, x);
    assert x in xs <==> x in multiset(xs);
  }

  /** Each entry of `r` first appears in `xs` before every occurrence of
      the entries listed after it. */
  ghost predicate InFirstAppearanceOrder<T>(r: seq<T>, xs: seq<T>) {
    forall i, j, k :: 0 <= i < j < |r| && 0 <= k < |xs| && xs[k] == r[j] ==> r[i] in xs[..k]
  }

  /** The distinct entries of `xs` in order of first appearance, as pandas'
      `Series.unique()` returns them. */
  function Unique<T(==)>(xs: seq<T>): (r: seq<T>)
    ensures Distinct(r)
    ensures forall i :: 0 <= i < |xs| ==> xs[i] in r
    ensures forall i :: 0 <= i < |r| ==> r[i] in xs
    ensures InFirstAppearanceOrder(r, xs)
    decreases |xs|
  {
    if |xs| == 0 then []
    else
      var init := xs[..|xs| - 1];
      var u := Unique(init);
      assert xs == init + [xs[|xs| - 1]];
      FirstAppearanceStep(init, xs[|xs| - 1], u);
      if xs[|xs| - 1] in u then u else u + [xs[|xs| - 1]]
  }

  /** Appending an entry to `xs` keeps the order of first appearance, and a
      new entry comes last. */
  lemma FirstAppearanceStep<T>(init: seq<T>, last: T, u: seq<T>)
    requires InFirstAppearanceOrder(u, init)
    requires forall i :: 0 <= i < |init| ==> init[i] in u
    requires forall i :: 0 <= i < |u| ==> u[i] in init
    ensures last in u ==> InFirstAppearanceOrder(u, init + [last])
    ensures last !in u ==> InFirstAppearanceOrder(u + [last], init + [last])
  {
    var xs := init + [last];
    if last in u {
      forall i, j, k | 0 <= i < j < |u| && 0 <= k < |xs| && xs[k] == u[j] ensures u[i] in xs[..k] {
        var k' :| 0 <= k' < |init| && init[k'] == u[j];
        var kk := if k < |init| then k else k';
        assert init[kk] == u[j];
        assert u[i] in init[..kk];
        assert init[..kk] == xs[..kk] && xs[..kk] <= xs[..k];
      }
    } else {
      var r := u + [last];
      forall i, j, k | 0 <= i < j < |r| && 0 <= k < |xs| && xs[k] == r[j] ensures r[i] in xs[..k] {
        if j == |u| {
          assert forall t :: 0 <= t < |init| ==> init[t] != last;
          assert k == |init|;
          assert r[i] in init && xs[..k] == init;
        } else {
          assert r[j] == u[j] && k < |init| && init[k] == u[j];
          assert u[i] in init[..k] && xs[..k] == init[..k];
        }
      }
    }
  }

  /** Wraps cell values as single-value selection entries. */
  function Points(vs: seq<Value>): (r: seq<Item>)
    ensures |r| == |vs|
    ensures forall i :: 0 <= i < |vs| ==> r[i] == Point(vs[i])
  {
    seq(|vs|, i requires 0 <= i < |vs| => Point(vs[i]))
  }

  lemma PointsMembership(vs: seq<Value>, v: Value)
    ensures Point(v) in Points(vs) <==> v in vs
  {
    if v in vs {
      var i :| 0 <= i < |vs| && vs[i] == v;
      assert Points(vs)[i] == Point(v);
    }
  }

  lemma PointsDistinct(vs: seq<Value>)
    requires Distinct(vs)
    ensures Distinct(Points(vs))
  {
  }

  /** Sorting wrapped values keeps exactly those values, and keeps them
      distinct. */
  lemma SortPoints(vs: seq<Value>)
    ensures Distinct(vs) ==> Distinct(Sort(Points(vs)))
    ensures forall x :: x in Sort(Points(vs)) <==> x.Point? && x.v in vs
  {
    var ps := Sort(Points(vs));
    if Distinct(vs) {
      PointsDistinct(vs);
      DistinctByMultiset(Points(vs), ps);
    }
    forall x ensures x in ps <==> x.Point? && x.v in vs {
      assert x in ps <==> x in multiset(ps);
      assert x in Points(vs) <==> x in multiset(Points(vs));
      if x in Points(vs) {
        var i :| 0 <= i < |vs| && Points(vs)[i] == x;
      }
      if x.Point? {
        PointsMembership(vs, x.v);
      }
    }
  }
}
